=== FILE: README.md ===
# Roguelike core: dungeon generation, movement and explored memory

A Dafny model of the game logic of `firstrl.py`, a libtcod roguelike. Its
libtcod shell is not modelled. The model covers:

- **Room geometry** (`Geometry`). The `Rect` class: construction from
  `(x, y, w, h)`, the floor-average centre, and the overlap test with
  inclusive bounds.
- **Tiles and carving** (`Tiles`). The `Tile` record and the fully blocked
  80 × 45 map, stored as `seq<seq<Tile>>` and indexed `[x][y]`. Also
  `create_room`, `create_h_tunnel` and `create_v_tunnel`, written as recursive
  functions over the map. Each one clears `blocked` and `block_sight` together
  on exactly the cells it names.
- **Objects and collision** (`Objects`). The `Object` record, the four monster
  kinds, `is_blocked`, `Object.move`, and the target search of
  `player_move_or_attack`.
- **Dungeon generator** (`Generator`). This is `make_map` with
  `place_objects`. Randomness is a supplied sequence of integer draws,
  consumed in the code's order:
  - for each of the 30 attempts, the room's `w`, `h`, `x` and `y`;
  - for an accepted room that is not the first, the corridor coin;
  - the room's monster count;
  - for each monster, its `x` and `y`, and then its kind only when the spot is
    free.
- **Passable routes** (`Connectivity`). From the generator's corridor
  invariant it follows that a chain of passable, arrow-key-adjacent tiles
  joins the player's spawn to the centre of every accepted room. This is about
  terrain only: monsters are ignored, and one may stand on such a chain, for
  instance on a room-border tile where a corridor enters (`place_objects` at
  firstrl.py:225-229 draws spots on the room's bounds).
- **Play** (`Turns`):
  - `player_move_or_attack`;
  - the key-to-action gating of `handle_keys` and of the main loop, including
    the monsters' growl turn;
  - the explored-memory update that `render_all` performs when
    `fov_recompute` is set.

`Draws.Draw` takes the next integer of the stream in `[lo, hi]`. The stream
may run dry, or its next value may lie outside the range. Neither can happen
with libtcod's generator, and both give an `Err`. Every property of the
generator is stated for the `Ok` outcome. `Generator.MakeMapSucceeds` exhibits
draws on which `make_map` succeeds with one room, and
`Generator.MakeMapPopulated` draws on which it succeeds with two rooms joined
by a corridor and a monster in the first.

## Details of `firstrl.py` the model keeps

- A move that the terrain refuses still sets `fov_recompute`
  (`firstrl.py:263-265`).
- The attack target is the first object of any kind at the destination. That
  includes non-blocking objects, and the player itself when `dx = dy = 0`
  (`firstrl.py:255-258`).
- Monster spots are drawn from the room's full rectangle, border included
  (`firstrl.py:225-226`). A spot on the border ring is used only when a
  corridor has opened it.
- The monster's kind is drawn after its position, and only when the position
  is free (`firstrl.py:229-231`).
- The first attempt of `make_map` is always kept, because no room has been
  accepted that it could meet. So every generated map has at least one room.
- The kind draw is `random_get_int(0, 0, 100)`, which has 101 values. The
  comments say 10/20/30/40 %. The actual shares are 10, 20, 30 and 41 values
  out of 101 (`Objects.KindShares`).
- No message is printed for a successful move. The only messages are the
  attack and growl `print`s, which are modelled as `Turns.Event` entries.
- Corridors only ever open tiles. A corridor may run through an earlier room
  or corridor. So the map records which tiles are open, not which coin each
  corridor used. `Generator.MakeMapLayout` accordingly places every open tile
  inside a room or on one of the two L-shaped routes between consecutive
  room centres.

## Model

| member | source | states |
|---|---|---|
| Draws.Draw | firstrl.py:170-174 | A draw succeeds exactly when the stream is non-empty and its head is in `[lo, hi]`; it then yields that value and consumes exactly one integer |
| Geometry.MakeRect | firstrl.py:67-71 | The far corner is the near corner plus `w` and `h` |
| Geometry.Center | firstrl.py:73-77 | The centre is the floor of the average of the bounds on each axis (`2c <= x1 + x2 <= 2c + 1`) |
| Geometry.IntersectSymmetric | firstrl.py:79-82 | The overlap test does not depend on argument order |
| Geometry.IntersectIffSharedTile | firstrl.py:79-82 | Two proper rectangles intersect exactly when some tile lies in both, bounds included |
| Geometry.TouchingRoomsIntersect | firstrl.py:79-82 | Rectangles that only share a border column count as intersecting |
| Geometry.CenterInInterior | firstrl.py:73-77 | The centre of a room at least two tiles wide and high is a tile the room carves |
| Tiles.NewTile | firstrl.py:84-92 | A new tile is unexplored, and its sight blocking defaults to its `blocked` flag |
| Tiles.InitialMap | firstrl.py:159-162 | The starting map is 80 × 45 with every tile blocked, sight-blocking and unexplored |
| Tiles.CarveRow | firstrl.py:101-103 | The carving loop clears both flags exactly on the inclusive row segment and leaves every other tile unchanged |
| Tiles.CarveColumn | firstrl.py:108-110 | The same, for an inclusive column segment |
| Tiles.CarveBlock | firstrl.py:115-118 | The nested carving loop clears both flags exactly on the block and leaves every other tile unchanged |
| Tiles.CreateHTunnel | firstrl.py:98-103 | Clears both flags exactly on row `y` between the two columns, whichever is given first; nothing else changes |
| Tiles.CreateVTunnel | firstrl.py:105-110 | Clears both flags exactly on column `x` between the two rows, whichever is given first; nothing else changes |
| Tiles.CreateRoom | firstrl.py:112-118 | Clears both flags exactly on `x1+1..x2-1 × y1+1..y2-1`; the border ring and everything outside are unchanged |
| Tiles.CreateRoomIdempotent | firstrl.py:112-118 | Carving a room twice gives the same map as carving it once |
| Tiles.CreateHTunnelIdempotent | firstrl.py:98-103 | Carving a horizontal tunnel twice equals carving it once |
| Tiles.CreateVTunnelIdempotent | firstrl.py:105-110 | Carving a vertical tunnel twice equals carving it once |
| Tiles.CreateHTunnelSymmetric | firstrl.py:101 | Swapping the endpoints of a horizontal tunnel gives the same map |
| Tiles.CreateVTunnelSymmetric | firstrl.py:108 | Swapping the endpoints of a vertical tunnel gives the same map |
| Tiles.WidensPreserves | firstrl.py:101-118 | Carving keeps `blocked == block_sight`, keeps every tile's explored bit as it was, keeps the blocked outer ring, and never re-blocks a passable tile |
| Objects.NewMonster | firstrl.py:231-243 | A blocking monster at the drawn spot: a troll below 10, a gnoll in 10..29, an orc in 30..59, and a goblin from 60 up |
| Objects.KindShares | firstrl.py:231-243 | Of the 101 draws in `[0, 100]`, 10 give a troll, 20 a gnoll, 30 an orc and 41 a goblin |
| Objects.SpawnedIff | firstrl.py:231-243 | An object is `Spawned` exactly when it is the monster some draw in `[0, 100]` builds at its own spot |
| Objects.NewMonsterSpawned | firstrl.py:231-243 | Every monster built from a draw in `[0, 100]` is `Spawned` |
| Objects.AnyBlockerAt | firstrl.py:149-152 | The object scan finds a blocker exactly when some blocking object stands on the tile |
| Objects.IsBlocked | firstrl.py:144-154 | A tile is free exactly when its terrain is passable and no blocking object stands on it |
| Objects.FirstAt | firstrl.py:253-258 | Returns the first object, in list order, at the tile, or none when no object of any kind is there |
| Objects.Move | firstrl.py:48-52 | The object moves by `(dx, dy)` exactly when the destination is not blocked, and stays put otherwise; no other object changes |
| Generator.AnyIntersect | firstrl.py:178-183 | The scan rejects a candidate exactly when it intersects some accepted room |
| Generator.SampledRoomFits | firstrl.py:169-176 | In-range draws give a room whose sides are between 6 and 10 and whose far corner is at most on the map's last column and row |
| Generator.Connect | firstrl.py:202-210 | The corridor opens exactly the tiles of the two legs of the L from the previous centre to the new one, in the coin's order, and leaves every other tile unchanged; both legs end up passable |
| Generator.PlaceMonsters | firstrl.py:223-244 | Appends at most `count` objects. Each is a blocking monster inside the room's closed bounds, on a spot `is_blocked` reported free against the map and the earlier objects. When the first drawn spot is free, the next object is the monster of kind `choice` built there |
| Generator.PlaceMonstersAttempt | firstrl.py:223-244 | One attempt of the loop: the spot is drawn inside the room's bounds. A blocked spot is dropped after its two draws and the remaining attempts run on the rest. On a free spot the third draw must be in `[0, 100]`, and the monster of that kind is appended before the remaining attempts run |
| Generator.PlaceMonstersDraws | firstrl.py:223-244 | After `count` attempts, the draws used are two per attempt plus one per monster placed, the draws left are a tail of the stream, and every appended object is a monster some draw in `[0, 100]` chose |
| Generator.BlockedSpotSkipped | firstrl.py:223-229 | A blocked spot inside the room is dropped and the remaining attempts run on the draws after its two coordinates |
| Generator.FreeSpotFilled | firstrl.py:223-244 | A free spot inside the room, when the loop succeeds, draws a kind in `[0, 100]`, and the remaining attempts run after that monster is appended |
| Generator.BlockedSpotDraws | firstrl.py:223-229 | A blocked spot adds its two draws, and no object, to the accounting of the remaining attempts |
| Generator.FreeSpotDraws | firstrl.py:223-244 | A free spot adds its three draws and one monster of the drawn kind to the accounting of the remaining attempts |
| Generator.PlaceOnFreeSpot | firstrl.py:223-244 | A single attempt on a free spot inside the room places the chosen monster there and consumes exactly three draws |
| Generator.PlaceMonstersHead | firstrl.py:223-244 | A monster already appended stays at its position in the list while later attempts run |
| Generator.PlaceObjects | firstrl.py:219-244 | The first draw is the monster count, 0 to 3, and at most that many monsters are appended, with the same guarantees. A count of 0 changes nothing and consumes one draw. A free first spot gets the monster the next draw chooses |
| Generator.PlaceObjectsCount | firstrl.py:219-223 | After a count draw `n` in `[0, 3]`, `place_objects` is exactly `n` attempts of the monster loop on the remaining draws |
| Generator.PlaceObjectsDraws | firstrl.py:219-244 | `place_objects` uses one draw for the count, two per attempt and one per monster placed, leaves a tail of the stream, and appends only monsters of drawn kinds |
| Generator.CountIn | firstrl.py:223-244 | The number of objects inside a rectangle, bounds included: at most the list's length, and 0 exactly when none stands inside |
| Generator.CarveAccepted | firstrl.py:186-210 | Accepting a room opens exactly its interior plus, for every room but the first, the corridor from the previous centre; nothing else changes, the interior is passable and both legs are open |
| Generator.AcceptRoom | firstrl.py:184-217 | The accept branch appends the room and carves exactly what `CarveAccepted` names, horizontal leg first exactly when a later room's coin is 1. The coin is drawn exactly for a room after the first. The player moves to the centre exactly for the first room. Earlier monsters are untouched, and at most 3 new monsters stand in the room |
| Generator.AcceptRoomDraws | firstrl.py:184-217 | The accept branch has the objects and leftover draws of `place_objects` run on the carved map, and fails exactly when it fails. For the first room that call gets the whole stream and the player already moved to the centre. For a later room it gets the draws after the coin, which must be in `[0, 1]` |
| Generator.EmptyLaterRoom | firstrl.py:196-217 | A room after the first with either coin and a monster count of 0 is accepted, consumes exactly the coin and the count, and leaves the objects as they were |
| Generator.OneMonsterFirstRoom | firstrl.py:184-244 | A first room with count draw 1 and a free interior spot other than the centre ends with exactly the player at the centre and that monster |
| Generator.OneMonsterPlaced | firstrl.py:219-244 | In a freshly carved first room, count 1 and an interior spot other than the centre place exactly that monster and consume four draws |
| Generator.AcceptRoomKeepsInv | firstrl.py:184-217 | Accepting a fitting room that meets no accepted room keeps every invariant: rooms disjoint, interiors and corridors open, every open tile carved by some room, objects placed, at most 3 monsters per room |
| Generator.TerrainStep | firstrl.py:184-217 | Carving an accepted fitting room that meets no accepted room keeps the map's flags consistent, unexplored and walled at the ring, keeps the rooms fitting and disjoint, keeps interiors open and consecutive centres linked, and keeps every open tile in a room or on a route |
| Generator.OpenStep | firstrl.py:186-210 | After accepting a room, every open tile still lies in a room's interior or on a route between consecutive centres |
| Generator.CrowdStep | firstrl.py:213-244 | The new room's monsters lie in no earlier room's bounds, and earlier monsters lie in no new room's bounds, so no room holds more than 3 monsters |
| Generator.InitialLevel | firstrl.py:159-162 | The state `make_map` starts from, the all-wall map with the object list holding only the player (firstrl.py:316-319), satisfies the level invariant: no rooms, no monsters, every tile wall and unexplored |
| Generator.TryRoom | firstrl.py:168-217 | The attempt samples its room from its first four draws. It keeps the room exactly when the room meets no accepted room. A rejected room leaves the level unchanged and consumes only the four draws. A room that meets no accepted room is handed, with the draws after the four, to the accept branch. The level invariant is kept |
| Generator.KeptAttempt | firstrl.py:168-217 | A later attempt whose room meets no accepted room, with any coin and a count of 0, keeps the room, leaves the objects unchanged and consumes six draws |
| Generator.GreedyMaximal | firstrl.py:178-217 | Every candidate that the greedy rejection loop drops meets a room it keeps |
| Generator.GreedyDisjoint | firstrl.py:178-217 | The greedy loop over fitting candidates keeps only fitting, pairwise non-intersecting rooms |
| Generator.GreedyCount | firstrl.py:178-217 | The greedy loop only appends, at most one room per candidate, and keeps the first candidate when nothing was kept before |
| Generator.Attempts | firstrl.py:168-217 | The rooms after `n` attempts are the greedy selection from the `n` rooms tried, the first of them sampled from the first four draws; every room tried fits; the level invariant is kept |
| Generator.MakeMap | firstrl.py:156-217 | A generated level has between 1 and 30 rooms and keeps the level invariant. Its rooms are the greedy selection from 30 fitting rooms tried, the first sampled from the first four draws. Every room tried is kept or meets a kept room |
| Generator.MakeMapRunsAttempts | firstrl.py:156-217 | `make_map` succeeds exactly when the 30 attempts run from the all-wall map and the lone player succeed, and it returns their level |
| Generator.RejectedAttempts | firstrl.py:178-184 | Attempts that sample an already accepted room are all rejected and leave the level unchanged |
| Generator.RejectedStep | firstrl.py:168-184 | One rejected resample in front of attempts that leave the level unchanged still leaves it unchanged |
| Generator.ResampleRejected | firstrl.py:168-184 | One attempt that samples the accepted corner room again is rejected, leaves the level unchanged and consumes exactly four draws |
| Generator.AttemptsStep | firstrl.py:168-217 | When one attempt succeeds, the loop's outcome and final level are those of the remaining attempts run from its level and leftover draws |
| Generator.EmptyFirstRoom | firstrl.py:184-223 | A first room whose monster count draw is 0 is accepted and consumes only that draw |
| Generator.FirstAttemptKeeps | firstrl.py:168-217 | The first attempt keeps the 6 × 6 room it samples at the map's corner |
| Generator.MakeMapSucceeds | firstrl.py:156-217 | `make_map` succeeds on some draws: with `k` = `MAX_ROOMS - 1`, a first attempt that keeps a 6 × 6 room with no monsters followed by `k` attempts that resample it gives `Ok` with exactly one room |
| Generator.OneRoomAttempts | firstrl.py:168-217 | From a level with no rooms, keeping the corner room and then rejecting `k` resamples of it ends `Ok` with that one room |
| Generator.FirstRoomWithMonster | firstrl.py:168-244 | A first attempt that samples the 6 × 6 corner room, draws count 1 and spot `(2, 2)` and kind 50 keeps the room and ends with the player at `(3, 3)` and an orc at `(2, 2)` |
| Generator.SecondRoomAttempts | firstrl.py:168-217 | After the corner room, keeping the 6 × 6 room at `x = 10` with no monsters and then rejecting `k` resamples ends `Ok` with both rooms and the objects unchanged |
| Generator.TwoRoomAttempts | firstrl.py:168-244 | From a level with no rooms, those draws give `Ok` with the two rooms, the player at the first centre and the orc |
| Generator.MakeMapPopulated | firstrl.py:156-244 | `make_map` succeeds on some draws with a corridor and a monster: with `k` = `MAX_ROOMS - 2`, the result has two rooms, two objects, and the orc at `(2, 2)` |
| Generator.MakeMapLayout | firstrl.py:156-217 | Rooms fit the map and are pairwise non-intersecting. Interiors are open, and consecutive rooms are joined by an open L corridor. Every open tile lies inside a room or on an L route between consecutive centres. `blocked == block_sight`, nothing is explored, and the outer ring is wall |
| Generator.MakeMapPopulation | firstrl.py:156-244 | The player is at the first room's centre. Each room's bounds hold at most 3 monsters. Every monster blocks and stands on a passable tile inside some room. No two objects share a tile |
| Connectivity.LinkedConnected | firstrl.py:202-210 | An open L corridor is a walk of passable, adjacent tiles from one centre to the other |
| Connectivity.ChainConnected | firstrl.py:190-210 | Joining each room to the previous one connects the first room's centre to every room's centre |
| Connectivity.SpawnReachesEveryRoom | firstrl.py:192-210 | In every generated level a walk of passable tiles leads from the player's spawn to each room's centre |
| Turns.NewGame | firstrl.py:322-330 | Play starts on the generated level with `fov_recompute` set |
| Turns.NewGameInv | firstrl.py:192-195 | At the start of play the player stands on a passable tile, and the map's outer ring is wall |
| Turns.StepStaysOnMap | firstrl.py:133-140 | From a valid position, every arrow-key step lands on the map |
| Turns.PlayerMoveOrAttack | firstrl.py:246-265 | If any object is at the destination, nothing changes and one attack message is logged. Otherwise `fov_recompute` is set, the player moves exactly when the terrain there is passable, and no other object moves |
| Turns.AttackNamesFirstTarget | firstrl.py:253-262 | The attack message names the first object in list order at the destination |
| Turns.MoveKeepsPlayInv | firstrl.py:246-265 | A step keeps the player on a passable tile of the map |
| Turns.Delta | firstrl.py:133-140 | Up is `(0, -1)`, down `(0, 1)`, left `(-1, 0)` and right `(1, 0)`; each is a single arrow-key step |
| Turns.HandleKeys | firstrl.py:120-142 | Escape alone exits. While playing, a movement key runs `player_move_or_attack` with that key's step. While playing, any other key does not take a turn and changes nothing. While not playing, any key but Escape changes nothing. The player invariant is kept |
| Turns.MonsterTurn | firstrl.py:352-355 | Every object but the player growls once, in list order |
| Turns.LoopStep | firstrl.py:334-355 | One loop pass exits exactly on Escape and never moves a monster. Monsters act only after a movement key while playing, once each in list order; otherwise nothing is logged |
| Turns.LoopStepRendersThenKeys | firstrl.py:334-355 | A pass renders first and then handles the key in the rendered game: it ends in the game the key handler leaves, and its log starts with the handler's messages |
| Turns.Explore | firstrl.py:277-296 | After the update a tile is explored exactly when it was explored or is visible; its passability and sight flags are unchanged |
| Turns.Render | firstrl.py:272-296 | Nothing happens unless `fov_recompute` is set. The flag is then cleared. A tile becomes explored exactly when it was explored or is visible, and nothing else about any tile changes |
| Turns.RenderMonotone | firstrl.py:272-296 | Rendering never un-explores a tile or changes passability, and it keeps the player invariant |
| Turns.ExploreIdempotent | firstrl.py:277-296 | Marking the same visible set twice equals marking it once |

## Left out

- The libtcod console, the font, the window and fullscreen toggling (`firstrl.py:125-127`, `310-313`). These are display I/O.
- Drawing, clearing, colours and blitting (`firstrl.py:28-31`, `54-63`, `286-303`). These are rendering. Monster colours are dropped from `Object`.
- The field-of-view computation (`libtcod.map_compute_fov`) and the FOV map build (`firstrl.py:275`, `325-328`). These are foreign library calls. The visible set is an input to `Turns.Render`. Nothing is assumed about it: not that the player's own tile is in it, and not that it stays within the torch radius.
- How `libtcod.random_get_int` produces numbers. Draws are supplied as a sequence.
- Draws.Draw: an exhausted stream or an out-of-range value gives an error. libtcod never does either, so the model adds error outcomes that the source cannot reach.
- Key polling and the window-closed loop (`firstrl.py:124`, `133-140`, `335-349`). One key event is one `Turns.Intent`. The source checks the arrow keys with `console_is_key_pressed`, which reads keyboard state rather than the returned key. The model assumes the two agree.
- `game_state` is always `'playing'` in the source. It is a boolean parameter of `Turns.HandleKeys` and `Turns.LoopStep`.
- The `print` calls (`firstrl.py:262`, `355`) become `Turns.Event` log entries, not console output.
- Objects.IsBlocked: requires coordinates on the map. Python would wrap a negative index and fail on one past the end. Generation never produces such coordinates, and `Turns.StepStaysOnMap` shows that play never does either.
- Tiles.CreateRoom: requires the room's bounds to lie on the map, for the same reason. The same requirement applies to `CreateHTunnel` and `CreateVTunnel`.
- Turns.PlayerMoveOrAttack: requires the destination on the map. `Turns.HandleKeys` discharges this from the play invariant.
- Generator.MakeMapLayout: places every open tile on one of the two L routes between consecutive centres, not on the route the coin chose. The level does not record the coins, and later corridors may cross earlier ones.
- Turns.LoopStep: its own ensures do not say that the key is handled in the rendered game. `Turns.LoopStepRendersThenKeys` states it, as a separate lemma so that `LoopStep` stays cheap to check.
- Generator.MakeMap: names only the first room tried as the one built from the first four draws. `Generator.MakeMapRunsAttempts` shows that `make_map` is exactly the 30 attempts, so each later room tried is tied to its own draws by `Generator.TryRoom` and `Generator.AttemptsStep`.
- Generator.Attempts: names only the first room tried as the one built from the first four draws. Each later room tried is tied to its own draws by `Generator.TryRoom`, applied to the draws the earlier attempts leave.
- Determinism for a fixed seed is immediate: every operation is a function of its draws.

=== FILE: connectivity.dfy ===
/** Passable routes in a generated level: a chain of passable tiles, each one
    arrow-key step from the last, leads from the player's spawn to the centre
    of every accepted room. Only the terrain is considered; a monster standing
    on such a tile, for example where a corridor crosses a room's border,
    would still block the player's move there. */
module Connectivity {

  import opened Geometry
  import opened Tiles
  import opened Generator

  function Abs(n: int): int { if n < 0 then -n else n }

  /** One arrow-key step apart. */
  predicate Adjacent(a: (int, int), b: (int, int)) {
    Abs(a.0 - b.0) + Abs(a.1 - b.1) == 1
  }

  /** A walk of passable tiles, each adjacent to the one before. */
  predicate IsPath(g: Grid, path: seq<(int, int)>) {
    && |path| >= 1
    && (forall i :: 0 <= i < |path| ==> Passable(g, path[i].0, path[i].1))
    && (forall i :: 0 < i < |path| ==> Adjacent(path[i - 1], path[i]))
  }

  ghost predicate Connected(g: Grid, p: (int, int), q: (int, int)) {
    exists path :: IsPath(g, path) && path[0] == p && path[|path| - 1] == q
  }

  /** The straight walk along row `y` from column `a` to column `b`. */
  function RowWalk(a: int, b: int, y: int): (w: seq<(int, int)>)
    ensures |w| >= 1 && w[0] == (a, y) && w[|w| - 1] == (b, y)
    ensures forall i :: 0 <= i < |w| ==> w[i].1 == y && Min(a, b) <= w[i].0 <= Max(a, b)
    ensures forall i :: 0 < i < |w| ==> Adjacent(w[i - 1], w[i])
    decreases Abs(b - a)
  {
    if a == b then [(a, y)]
    else
      var rest := RowWalk(if a < b then a + 1 else a - 1, b, y);
      assert Adjacent((a, y), rest[0]);
      [(a, y)] + rest
  }

  /** The straight walk along column `x` from row `a` to row `b`. */
  function ColumnWalk(a: int, b: int, x: int): (w: seq<(int, int)>)
    ensures |w| >= 1 && w[0] == (x, a) && w[|w| - 1] == (x, b)
    ensures forall i :: 0 <= i < |w| ==> w[i].0 == x && Min(a, b) <= w[i].1 <= Max(a, b)
    ensures forall i :: 0 < i < |w| ==> Adjacent(w[i - 1], w[i])
    decreases Abs(b - a)
  {
    if a == b then [(x, a)]
    else
      var rest := ColumnWalk(if a < b then a + 1 else a - 1, b, x);
      assert Adjacent((x, a), rest[0]);
      [(x, a)] + rest
  }

  /** Two walks that meet end to start make one walk. */
  lemma JoinPaths(g: Grid, p1: seq<(int, int)>, p2: seq<(int, int)>)
    requires IsPath(g, p1) && IsPath(g, p2) && p1[|p1| - 1] == p2[0]
    ensures IsPath(g, p1 + p2[1..])
    ensures (p1 + p2[1..])[0] == p1[0]
    ensures (p1 + p2[1..])[|p1 + p2[1..]| - 1] == p2[|p2| - 1]
  {
    var p := p1 + p2[1..];
    forall i | 0 < i < |p|
      ensures Adjacent(p[i - 1], p[i])
    {
      if i >= |p1| {
        assert p[i] == p2[i - |p1| + 1];
        assert p[i - 1] == p2[i - |p1|];
      }
    }
  }

  lemma ConnectedTransitive(g: Grid, p: (int, int), q: (int, int), r: (int, int))
    requires Connected(g, p, q) && Connected(g, q, r)
    ensures Connected(g, p, r)
  {
    var p1 :| IsPath(g, p1) && p1[0] == p && p1[|p1| - 1] == q;
    var p2 :| IsPath(g, p2) && p2[0] == q && p2[|p2| - 1] == r;
    JoinPaths(g, p1, p2);
  }

  lemma RowWalkIsPath(g: Grid, a: int, b: int, y: int)
    requires RowOpen(g, a, b, y)
    ensures IsPath(g, RowWalk(a, b, y))
  {
  }

  lemma ColumnWalkIsPath(g: Grid, a: int, b: int, x: int)
    requires ColumnOpen(g, a, b, x)
    ensures IsPath(g, ColumnWalk(a, b, x))
  {
  }

  /** An open L-shaped corridor is a walk from one centre to the other. */
  lemma LinkedConnected(g: Grid, p: (int, int), q: (int, int))
    requires Linked(g, p, q)
    ensures Connected(g, p, q)
  {
    if LegsOpen(g, p, q, true) {
      RowWalkIsPath(g, p.0, q.0, p.1);
      ColumnWalkIsPath(g, p.1, q.1, q.0);
      JoinPaths(g, RowWalk(p.0, q.0, p.1), ColumnWalk(p.1, q.1, q.0));
    } else {
      ColumnWalkIsPath(g, p.1, q.1, p.0);
      RowWalkIsPath(g, p.0, q.0, q.1);
      JoinPaths(g, ColumnWalk(p.1, q.1, p.0), RowWalk(p.0, q.0, q.1));
    }
  }

  /** Rooms joined in acceptance order form a chain, so the first room's
      centre reaches every later one. */
  lemma {:induction false} ChainConnected(g: Grid, rooms: seq<Rect>, k: nat)
    requires LinksInv(g, rooms) && k < |rooms|
    requires Passable(g, Center(rooms[0]).0, Center(rooms[0]).1)
    ensures Connected(g, Center(rooms[0]), Center(rooms[k]))
  {
    if k == 0 {
      var c := Center(rooms[0]);
      assert IsPath(g, [c]);
    } else {
      ChainConnected(g, rooms, k - 1);
      LinkedConnected(g, Center(rooms[k - 1]), Center(rooms[k]));
      ConnectedTransitive(g, Center(rooms[0]), Center(rooms[k - 1]), Center(rooms[k]));
    }
  }

  /** In every generated level, the player's spawn tile is joined by a walk of
      passable tiles to the centre of every accepted room. */
  lemma SpawnReachesEveryRoom(rng: seq<int>, k: nat)
    ensures MakeMap(rng).Ok? && k < |MakeMap(rng).value.rooms| ==>
      var lv := MakeMap(rng).value;
      Connected(lv.grid, (lv.objects[0].x, lv.objects[0].y), Center(lv.rooms[k]))
  {
    if MakeMap(rng).Ok? && k < |MakeMap(rng).value.rooms| {
      var lv := MakeMap(rng).value;
      FitsCarvesInner(lv.rooms[0]);
      ChainConnected(lv.grid, lv.rooms, k);
    }
  }
}

=== FILE: draws.dfy ===
/** Random numbers as a supplied stream of integer draws.

    `libtcod.random_get_int(0, lo, hi)` is modelled by taking the next integer of
    the stream. A stream that has run dry, or whose next integer lies outside
    `[lo, hi]`, cannot have come from the generator, and is reported as an error
    rather than excluded by a precondition: whether a draw is in range depends on
    the draws before it (the room's `x` range depends on its width). */
module Draws {

  datatype DrawError =
    | Exhausted
    | OutOfRange(lo: int, hi: int, got: int)

  /** Success value or the reason the draw stream could not be consumed. */
  datatype Result<+T> = Ok(value: T) | Err(error: DrawError) {

    predicate IsFailure() {
      Err?
    }

    function PropagateFailure<U>(): Result<U>
      requires Err?
    {
      Err(error)
    }

    function Extract(): T
      requires Ok?
    {
      value
    }
  }

  /** One draw: the value obtained and the stream left over. */
  datatype Drawn = Drawn(v: int, rest: seq<int>)

  /** Take one integer in the inclusive range `[lo, hi]` from the stream. */
  function Draw(rng: seq<int>, lo: int, hi: int): (r: Result<Drawn>)
    ensures r.Ok? <==> |rng| > 0 && lo <= rng[0] <= hi
    ensures r.Ok? ==> lo <= r.value.v <= hi && |r.value.rest| == |rng| - 1
    ensures r.Ok? ==> rng == [r.value.v] + r.value.rest
    ensures r.Err? ==> (r.error == Exhausted <==> |rng| == 0)
  {
    if |rng| == 0 then Err(Exhausted)
    else if lo <= rng[0] <= hi then Ok(Drawn(rng[0], rng[1..]))
    else Err(OutOfRange(lo, hi, rng[0]))
  }
}

=== FILE: generator.dfy ===
/** The dungeon generator of firstrl.py: `make_map` and `place_objects`.

    Every random number comes from the supplied draw stream, consumed in the
    code's order: for each of the `MaxRooms` attempts the room's `w`, `h`, `x`
    and `y`; then, for an accepted room that is not the first, the coin that
    orders the corridor's legs; then the room's monster count, and for each
    monster its `x` and `y`, followed by its kind only when the spot is free. */
module Generator {

  import opened Geometry
  import opened Tiles
  import opened Objects
  import opened Draws

  const RoomMaxSize := 10
  const RoomMinSize := 6
  const MaxRooms := 30
  const MaxRoomMonsters := 3

  /** The map, the object list (the player first) and the accepted rooms. */
  datatype Level = Level(grid: Grid, objects: seq<Object>, rooms: seq<Rect>)

  /** A level built so far and the draws not yet consumed. */
  datatype Step = Step(level: Level, rest: seq<int>)

  /** An object list after `place_objects` and the draws not yet consumed. */
  datatype Placed = Placed(objects: seq<Object>, rest: seq<int>)

  /** A room as `make_map` samples it: its size within the configured range and
      its far corner at most on the map's last row and column. */
  predicate Fits(r: Rect) {
    && RoomMinSize <= r.x2 - r.x1 <= RoomMaxSize
    && RoomMinSize <= r.y2 - r.y1 <= RoomMaxSize
    && 0 <= r.x1 && r.x2 <= MapWidth - 1
    && 0 <= r.y1 && r.y2 <= MapHeight - 1
  }

  predicate IsMonsterName(name: string) {
    name in {"troll", "gnoll", "orc", "goblin"}
  }

  // ---------------------------------------------------------------- corridors

  predicate RowOpen(g: Grid, a: int, b: int, y: int) {
    forall x :: Min(a, b) <= x <= Max(a, b) ==> Passable(g, x, y)
  }

  predicate ColumnOpen(g: Grid, a: int, b: int, x: int) {
    forall y :: Min(a, b) <= y <= Max(a, b) ==> Passable(g, x, y)
  }

  /** Both legs of the L-shaped corridor from `p` to `q` are passable: along
      row `p.1` then column `q.0` when `hFirst`, along column `p.0` then row
      `q.1` otherwise. */
  predicate LegsOpen(g: Grid, p: (int, int), q: (int, int), hFirst: bool) {
    if hFirst then RowOpen(g, p.0, q.0, p.1) && ColumnOpen(g, p.1, q.1, q.0)
    else ColumnOpen(g, p.1, q.1, p.0) && RowOpen(g, p.0, q.0, q.1)
  }

  /** Some L-shaped corridor from `p` to `q` is passable. */
  predicate Linked(g: Grid, p: (int, int), q: (int, int)) {
    LegsOpen(g, p, q, true) || LegsOpen(g, p, q, false)
  }

  /** `(x, y)` lies on one of the two legs of the L-shaped corridor from `p` to
      `q` that `LegsOpen` describes. */
  predicate OnLegs(p: (int, int), q: (int, int), hFirst: bool, x: int, y: int) {
    if hFirst then
      (y == p.1 && Min(p.0, q.0) <= x <= Max(p.0, q.0)) || (x == q.0 && Min(p.1, q.1) <= y <= Max(p.1, q.1))
    else
      (x == p.0 && Min(p.1, q.1) <= y <= Max(p.1, q.1)) || (y == q.1 && Min(p.0, q.0) <= x <= Max(p.0, q.0))
  }

  /** `(x, y)` lies on either of the two L-shaped corridors from `p` to `q`. */
  predicate OnRoute(p: (int, int), q: (int, int), x: int, y: int) {
    OnLegs(p, q, true, x, y) || OnLegs(p, q, false, x, y)
  }

  lemma HTunnelWidens(g: Grid, x1: int, x2: int, y: int)
    requires WellFormed(g) && InInner(x1, y) && InInner(x2, y)
    ensures Widens(g, CreateHTunnel(g, x1, x2, y))
    ensures RowOpen(CreateHTunnel(g, x1, x2, y), x1, x2, y)
  {
  }

  lemma VTunnelWidens(g: Grid, y1: int, y2: int, x: int)
    requires WellFormed(g) && InInner(x, y1) && InInner(x, y2)
    ensures Widens(g, CreateVTunnel(g, y1, y2, x))
    ensures ColumnOpen(CreateVTunnel(g, y1, y2, x), y1, y2, x)
  {
  }

  /** The corridor `make_map` carves from the previous room's centre `p` to the
      new room's centre `q`: horizontal leg first when the coin shows 1. */
  function Connect(g: Grid, p: (int, int), q: (int, int), hFirst: bool): (g': Grid)
    requires WellFormed(g) && InInner(p.0, p.1) && InInner(q.0, q.1)
    ensures Widens(g, g')
    ensures LegsOpen(g', p, q, hFirst)
    ensures forall x, y :: InMap(x, y) ==>
      g'[x][y] == (if OnLegs(p, q, hFirst, x, y) then Opened(g[x][y]) else g[x][y])
  {
    if hFirst then
      var g1 := CreateHTunnel(g, p.0, q.0, p.1);
      HTunnelWidens(g, p.0, q.0, p.1);
      var g2 := CreateVTunnel(g1, p.1, q.1, q.0);
      VTunnelWidens(g1, p.1, q.1, q.0);
      WidensPreserves(g1, g2);
      WidensTransitive(g, g1, g2);
      g2
    else
      var g1 := CreateVTunnel(g, p.1, q.1, p.0);
      VTunnelWidens(g, p.1, q.1, p.0);
      var g2 := CreateHTunnel(g1, p.0, q.0, q.1);
      HTunnelWidens(g1, p.0, q.0, q.1);
      WidensPreserves(g1, g2);
      WidensTransitive(g, g1, g2);
      g2
  }

  lemma LinkedWidens(g: Grid, g': Grid, p: (int, int), q: (int, int))
    requires Widens(g, g') && Linked(g, p, q)
    ensures Linked(g', p, q)
  {
    WidensPreserves(g, g');
  }

  // ------------------------------------------------------------------- rooms

  /** The scan of `make_map` over the accepted rooms, stopping at the first
      that intersects the candidate. */
  function AnyIntersect(room: Rect, rooms: seq<Rect>): (b: bool)
    ensures b <==> exists i :: 0 <= i < |rooms| && Intersect(room, rooms[i])
  {
    if |rooms| == 0 then false
    else if Intersect(room, rooms[0]) then true
    else
      var rest := AnyIntersect(room, rooms[1..]);
      assert forall i :: 1 <= i < |rooms| ==> rooms[i] == rooms[1..][i - 1];
      rest
  }

  /** Any in-range draws for `w`, `h`, `x` and `y` give a room that fits. */
  lemma SampledRoomFits(w: int, h: int, x: int, y: int)
    requires RoomMinSize <= w <= RoomMaxSize && RoomMinSize <= h <= RoomMaxSize
    requires 0 <= x <= MapWidth - w - 1 && 0 <= y <= MapHeight - h - 1
    ensures Fits(MakeRect(x, y, w, h))
  {
  }

  lemma FitsCarvesInner(r: Rect)
    requires Fits(r)
    ensures RectInMap(r)
    ensures forall x, y :: InInterior(x, y, r) ==> InInner(x, y)
    ensures InInterior(Center(r).0, Center(r).1, r)
    ensures InInner(Center(r).0, Center(r).1)
  {
    CenterInInterior(r);
  }

  // ----------------------------------------------------------------- objects

  /** `objs[i]` was placed by `place_objects` in `room`: a blocking monster
      inside the room's bounds, borders included, on a spot `is_blocked`
      reported free against the map and the objects placed before it. */
  ghost predicate NewlyPlaced(g: Grid, objs: seq<Object>, i: int, room: Rect)
    requires WellFormed(g) && 0 <= i < |objs|
  {
    && objs[i].blocks
    && IsMonsterName(objs[i].name)
    && InClosed(objs[i].x, objs[i].y, room)
    && InMap(objs[i].x, objs[i].y)
    && !IsBlocked(g, objs[..i], objs[i].x, objs[i].y)
  }

  /** `objs'` is `objs` followed by monsters placed in `room`. */
  ghost predicate PlacedAfter(g: Grid, objs: seq<Object>, objs': seq<Object>, room: Rect)
    requires WellFormed(g)
  {
    && |objs| <= |objs'|
    && objs'[..|objs|] == objs
    && forall i :: |objs| <= i < |objs'| ==> NewlyPlaced(g, objs', i, room)
  }

  lemma PlacedAfterCons(g: Grid, objs: seq<Object>, m: Object, objs': seq<Object>, room: Rect)
    requires WellFormed(g) && PlacedAfter(g, objs + [m], objs', room)
    requires NewlyPlaced(g, objs + [m], |objs|, room)
    ensures PlacedAfter(g, objs, objs', room)
  {
    var objs1 := objs + [m];
    assert objs'[..|objs|] == objs'[..|objs1|][..|objs|];
    assert objs'[..|objs1|] == objs1;
    assert objs'[..|objs|] == objs;
    assert objs'[|objs|] == objs1[|objs|];
    assert objs'[..|objs|] == objs1[..|objs|];
  }

  /** `rest` is what is left of `rng` once a prefix has been drawn. */
  predicate IsSuffix(rest: seq<int>, rng: seq<int>) {
    |rest| <= |rng| && rest == rng[|rng| - |rest|..]
  }

  lemma SuffixAfter(rng: seq<int>, mid: seq<int>, rest: seq<int>)
    requires IsSuffix(mid, rng) && IsSuffix(rest, mid)
    ensures IsSuffix(rest, rng)
  {
  }

  /** The monster loop of `place_objects`: `count` single placement attempts,
      each dropped when the drawn spot is blocked. */
  function PlaceMonsters(g: Grid, objs: seq<Object>, room: Rect, count: nat, rng: seq<int>): (r: Result<Placed>)
    requires WellFormed(g) && RectInMap(room)
    ensures r.Ok? ==> |r.value.objects| <= |objs| + count
    ensures r.Ok? ==> PlacedAfter(g, objs, r.value.objects, room)
    ensures r.Ok? && count > 0 ==>
      && |rng| >= 2 && InClosed(rng[0], rng[1], room)
      && (!IsBlocked(g, objs, rng[0], rng[1]) ==>
            && |rng| >= 3 && |r.value.objects| > |objs|
            && r.value.objects[|objs|] == NewMonster(rng[0], rng[1], rng[2]))
    decreases count
  {
    if count == 0 then Ok(Placed(objs, rng))
    else
      var x :- Draw(rng, room.x1, room.x2);
      var y :- Draw(x.rest, room.y1, room.y2);
      if IsBlocked(g, objs, x.v, y.v) then
        PlaceMonsters(g, objs, room, count - 1, y.rest)
      else
        var choice :- Draw(y.rest, 0, 100);
        var m := NewMonster(x.v, y.v, choice.v);
        assert (objs + [m])[..|objs|] == objs;
        var r := PlaceMonsters(g, objs + [m], room, count - 1, choice.rest);
        if r.Ok? then
          PlacedAfterCons(g, objs, m, r.value.objects, room);
          assert r.value.objects[|objs|] == r.value.objects[..|objs + [m]|][|objs|];
          r
        else r
  }

  /** One attempt of the monster loop: the spot is drawn inside the room's
      bounds; a blocked spot is dropped after its two draws, and a free spot
      gets the monster of the kind the third draw picks; then the remaining
      attempts run on the draws left. */
  lemma PlaceMonstersAttempt(g: Grid, objs: seq<Object>, room: Rect, count: nat, rng: seq<int>)
    requires WellFormed(g) && RectInMap(room) && count > 0
    ensures var r := PlaceMonsters(g, objs, room, count, rng);
      r.Ok? ==> |rng| >= 2 && InClosed(rng[0], rng[1], room)
    ensures |rng| >= 2 && InClosed(rng[0], rng[1], room) && IsBlocked(g, objs, rng[0], rng[1]) ==>
      PlaceMonsters(g, objs, room, count, rng) == PlaceMonsters(g, objs, room, count - 1, rng[2..])
    ensures |rng| >= 2 && InClosed(rng[0], rng[1], room) && !IsBlocked(g, objs, rng[0], rng[1]) ==>
      && (PlaceMonsters(g, objs, room, count, rng).Ok? ==> |rng| >= 3 && 0 <= rng[2] <= 100)
      && (|rng| >= 3 && 0 <= rng[2] <= 100 ==>
            PlaceMonsters(g, objs, room, count, rng)
              == PlaceMonsters(g, objs + [NewMonster(rng[0], rng[1], rng[2])], room, count - 1, rng[3..]))
  {
  }

  /** Every attempt of the monster loop uses two draws for the spot, and one
      more for the kind of each monster it places; the draws left over are
      the tail of the stream; and every monster placed has the kind of some
      draw in `[0, 100]`. */
  lemma {:induction false} PlaceMonstersDraws(g: Grid, objs: seq<Object>, room: Rect, count: nat, rng: seq<int>)
    requires WellFormed(g) && RectInMap(room)
    ensures DrawsAccounted(objs, count, rng, PlaceMonsters(g, objs, room, count, rng))
    decreases count, 1
  {
    var r := PlaceMonsters(g, objs, room, count, rng);
    if count == 0 {
      assert r == Ok(Placed(objs, rng));
      assert rng[|rng| - |rng|..] == rng;
    } else if r.Ok? {
      if IsBlocked(g, objs, rng[0], rng[1]) {
        BlockedSpotDraws(g, objs, room, count, rng);
      } else {
        FreeSpotDraws(g, objs, room, count, rng);
      }
    }
  }

  /** A blocked spot is dropped: the remaining attempts run on the draws
      after its two coordinates. */
  lemma BlockedSpotSkipped(g: Grid, objs: seq<Object>, room: Rect, count: nat, rng: seq<int>)
    requires WellFormed(g) && RectInMap(room) && count > 0
    requires |rng| >= 2 && InClosed(rng[0], rng[1], room) && IsBlocked(g, objs, rng[0], rng[1])
    ensures PlaceMonsters(g, objs, room, count, rng) == PlaceMonsters(g, objs, room, count - 1, rng[2..])
  {
  }

  /** A free spot that succeeds draws an in-range kind, and the remaining
      attempts run after that monster is appended. */
  lemma FreeSpotFilled(g: Grid, objs: seq<Object>, room: Rect, count: nat, rng: seq<int>)
    requires WellFormed(g) && RectInMap(room) && count > 0
    requires |rng| >= 2 && InClosed(rng[0], rng[1], room) && !IsBlocked(g, objs, rng[0], rng[1])
    requires PlaceMonsters(g, objs, room, count, rng).Ok?
    ensures |rng| >= 3 && 0 <= rng[2] <= 100
    ensures PlaceMonsters(g, objs, room, count, rng)
      == PlaceMonsters(g, objs + [NewMonster(rng[0], rng[1], rng[2])], room, count - 1, rng[3..])
  {
  }

  /** The accounting step for a blocked spot: its two draws are added to
      those of the remaining attempts. */
  lemma BlockedSpotDraws(g: Grid, objs: seq<Object>, room: Rect, count: nat, rng: seq<int>)
    requires WellFormed(g) && RectInMap(room) && count > 0
    requires |rng| >= 2 && InClosed(rng[0], rng[1], room) && IsBlocked(g, objs, rng[0], rng[1])
    ensures DrawsAccounted(objs, count, rng, PlaceMonsters(g, objs, room, count, rng))
    decreases count, 0
  {
    BlockedSpotSkipped(g, objs, room, count, rng);
    PlaceMonstersDraws(g, objs, room, count - 1, rng[2..]);
    DropAccounted(objs, count, rng, PlaceMonsters(g, objs, room, count - 1, rng[2..]));
  }

  /** The accounting step for a free spot: its three draws and its monster
      are added to those of the remaining attempts. */
  lemma FreeSpotDraws(g: Grid, objs: seq<Object>, room: Rect, count: nat, rng: seq<int>)
    requires WellFormed(g) && RectInMap(room) && count > 0
    requires |rng| >= 2 && InClosed(rng[0], rng[1], room) && !IsBlocked(g, objs, rng[0], rng[1])
    requires PlaceMonsters(g, objs, room, count, rng).Ok?
    ensures DrawsAccounted(objs, count, rng, PlaceMonsters(g, objs, room, count, rng))
    decreases count, 0
  {
    FreeSpotFilled(g, objs, room, count, rng);
    var m := NewMonster(rng[0], rng[1], rng[2]);
    PlaceMonstersDraws(g, objs + [m], room, count - 1, rng[3..]);
    NewMonsterSpawned(rng[0], rng[1], rng[2]);
    PlaceMonstersHead(g, objs, m, room, count - 1, rng[3..]);
    KeepAccounted(objs, m, count, rng, PlaceMonsters(g, objs + [m], room, count - 1, rng[3..]));
  }

  /** Two more draws and no new object in front of accounted draws are still
      accounted. */
  lemma DropAccounted(objs: seq<Object>, count: nat, rng: seq<int>, r: Result<Placed>)
    requires count > 0 && |rng| >= 2 && DrawsAccounted(objs, count - 1, rng[2..], r)
    ensures DrawsAccounted(objs, count, rng, r)
  {
    if r.Ok? {
      SuffixAfter(rng, rng[2..], r.value.rest);
    }
  }

  /** Three more draws and one spawned monster `m` in front of accounted
      draws are still accounted. */
  lemma KeepAccounted(objs: seq<Object>, m: Object, count: nat, rng: seq<int>, r: Result<Placed>)
    requires count > 0 && |rng| >= 3 && Spawned(m)
    requires DrawsAccounted(objs + [m], count - 1, rng[3..], r)
    requires r.Ok? ==> |r.value.objects| > |objs| && r.value.objects[|objs|] == m
    ensures DrawsAccounted(objs, count, rng, r)
  {
    if r.Ok? {
      SuffixAfter(rng, rng[3..], r.value.rest);
      var out := r.value.objects;
      forall i | |objs| <= i < |out|
        ensures Spawned(out[i])
      {
        if i > |objs| {
          assert |objs + [m]| <= i;
        }
      }
    }
  }

  /** The loop's result `r` used two draws per attempt and one more per
      monster placed, leaving the tail of `rng`, and every object it appended
      to `objs` is a monster of a drawn kind. */
  ghost predicate DrawsAccounted(objs: seq<Object>, count: nat, rng: seq<int>, r: Result<Placed>) {
    r.Ok? ==>
      && IsSuffix(r.value.rest, rng)
      && |rng| - |r.value.rest| == 2 * count + (|r.value.objects| - |objs|)
      && forall i :: |objs| <= i < |r.value.objects| ==> Spawned(r.value.objects[i])
  }

  /** A single attempt on a free spot of the room places the monster of the
      drawn kind there and uses exactly three draws. */
  lemma PlaceOnFreeSpot(g: Grid, objs: seq<Object>, room: Rect, x: int, y: int, c: int, rest: seq<int>)
    requires WellFormed(g) && RectInMap(room)
    requires InClosed(x, y, room) && 0 <= c <= 100 && !IsBlocked(g, objs, x, y)
    ensures PlaceMonsters(g, objs, room, 1, [x, y, c] + rest)
      == Ok(Placed(objs + [NewMonster(x, y, c)], rest))
  {
    var rng := [x, y, c] + rest;
    PlaceMonstersAttempt(g, objs, room, 1, rng);
    assert rng[3..] == rest;
  }

  /** A monster the loop has already appended stays where it was put. */
  lemma PlaceMonstersHead(g: Grid, objs: seq<Object>, m: Object, room: Rect, count: nat, rng: seq<int>)
    requires WellFormed(g) && RectInMap(room)
    requires PlaceMonsters(g, objs + [m], room, count, rng).Ok?
    ensures var p := PlaceMonsters(g, objs + [m], room, count, rng).value;
      |p.objects| > |objs| && p.objects[|objs|] == m
  {
    var p := PlaceMonsters(g, objs + [m], room, count, rng).value;
    assert p.objects[..|objs + [m]|] == objs + [m];
    assert p.objects[|objs|] == p.objects[..|objs + [m]|][|objs|];
  }

  /** `place_objects(room)`: at most `MaxRoomMonsters` monsters, appended
      after the objects already there. */
  function PlaceObjects(g: Grid, objs: seq<Object>, room: Rect, rng: seq<int>): (r: Result<Placed>)
    requires WellFormed(g) && RectInMap(room)
    ensures r.Ok? ==> |r.value.objects| <= |objs| + MaxRoomMonsters
    ensures r.Ok? ==> PlacedAfter(g, objs, r.value.objects, room)
    ensures r.Ok? ==>
      && |rng| >= 1 && 0 <= rng[0] <= MaxRoomMonsters
      && |r.value.objects| <= |objs| + rng[0]
      && (rng[0] == 0 ==> r.value == Placed(objs, rng[1..]))
      && (rng[0] > 0 ==>
            && |rng| >= 3 && InClosed(rng[1], rng[2], room)
            && (!IsBlocked(g, objs, rng[1], rng[2]) ==>
                  && |rng| >= 4 && |r.value.objects| > |objs|
                  && r.value.objects[|objs|] == NewMonster(rng[1], rng[2], rng[3])))
  {
    var n :- Draw(rng, 0, MaxRoomMonsters);
    PlaceMonsters(g, objs, room, n.v, n.rest)
  }

  /** `place_objects` uses one draw for the monster count, two for each
      attempt's spot and one for each monster's kind, leaves the tail of the
      stream, and appends only monsters of a drawn kind. */
  lemma PlaceObjectsDraws(g: Grid, objs: seq<Object>, room: Rect, rng: seq<int>)
    requires WellFormed(g) && RectInMap(room)
    ensures var r := PlaceObjects(g, objs, room, rng);
      r.Ok? ==> |rng| >= 1 && DrawsAccounted(objs, rng[0], rng[1..], r)
  {
    if PlaceObjects(g, objs, room, rng).Ok? {
      PlaceMonstersDraws(g, objs, room, rng[0], rng[1..]);
    }
  }

  // -------------------------------------------------------------- invariants

  ghost predicate MapInv(g: Grid) {
    WellFormed(g) && Consistent(g) && NoneExplored(g) && BorderBlocked(g)
  }

  ghost predicate RoomsInv(rooms: seq<Rect>) {
    && (forall i :: 0 <= i < |rooms| ==> Fits(rooms[i]))
    && (forall i, j :: 0 <= i < j < |rooms| ==> !Intersect(rooms[i], rooms[j]))
  }

  /** Every accepted room's interior is carved, and each room is joined to the
      one accepted before it. */
  ghost predicate LinksInv(g: Grid, rooms: seq<Rect>) {
    && (forall i, x, y :: 0 <= i < |rooms| && InInterior(x, y, rooms[i]) ==> Passable(g, x, y))
    && (forall i :: 0 < i < |rooms| ==> Linked(g, Center(rooms[i - 1]), Center(rooms[i])))
  }

  /** The tile lies within the bounds of one of `rooms`. */
  predicate InSomeRoom(x: int, y: int, rooms: seq<Rect>) {
    exists j :: 0 <= j < |rooms| && InClosed(x, y, rooms[j])
  }

  /** The player heads the object list, at the first room's centre once there
      is one; every later object is a blocking monster inside some room; every
      object stands on a passable tile; no two objects share a tile. */
  ghost predicate ObjectsInv(g: Grid, objs: seq<Object>, rooms: seq<Rect>) {
    && 1 <= |objs| <= 1 + MaxRoomMonsters * |rooms|
    && (|rooms| == 0 ==> objs[0] == InitialPlayer)
    && (|rooms| > 0 ==> objs[0] == InitialPlayer.(x := Center(rooms[0]).0, y := Center(rooms[0]).1))
    && (forall i :: 1 <= i < |objs| ==> objs[i].blocks && IsMonsterName(objs[i].name))
    && (forall i :: 1 <= i < |objs| ==> InSomeRoom(objs[i].x, objs[i].y, rooms))
    && (|rooms| > 0 ==> forall i :: 0 <= i < |objs| ==> Passable(g, objs[i].x, objs[i].y))
    && (forall i, j :: 0 <= i < j < |objs| ==> !At(objs[j], objs[i].x, objs[i].y))
  }

  /** Every open tile was carved by some accepted room: it lies in a room's
      interior, or on one of the two L-shaped routes between the centres of
      two consecutive rooms. */
  ghost predicate OpenInv(g: Grid, rooms: seq<Rect>)
    requires WellFormed(g)
  {
    forall x, y :: InMap(x, y) && !g[x][y].blocked ==>
      || (exists i :: 0 <= i < |rooms| && InInterior(x, y, rooms[i]))
      || (exists i :: 0 < i < |rooms| && OnRoute(Center(rooms[i - 1]), Center(rooms[i]), x, y))
  }

  /** How many of `objs` stand in `r`, bounds included. */
  function CountIn(objs: seq<Object>, r: Rect): (n: nat)
    ensures n <= |objs|
    ensures n == 0 <==> forall i :: 0 <= i < |objs| ==> !InClosed(objs[i].x, objs[i].y, r)
  {
    if |objs| == 0 then 0
    else
      var rest := CountIn(objs[1..], r);
      assert forall i :: 1 <= i < |objs| ==> objs[i] == objs[1..][i - 1];
      (if InClosed(objs[0].x, objs[0].y, r) then 1 else 0) + rest
  }

  lemma {:induction false} CountInAppend(a: seq<Object>, b: seq<Object>, r: Rect)
    ensures CountIn(a + b, r) == CountIn(a, r) + CountIn(b, r)
    decreases |a|
  {
    if |a| > 0 {
      assert (a + b)[1..] == a[1..] + b;
      CountInAppend(a[1..], b, r);
    } else {
      assert a + b == b;
    }
  }

  /** No room's bounds hold more than `MaxRoomMonsters` objects after the
      player. */
  ghost predicate CrowdInv(objs: seq<Object>, rooms: seq<Rect>) {
    |objs| >= 1 && forall j :: 0 <= j < |rooms| ==> CountIn(objs[1..], rooms[j]) <= MaxRoomMonsters
  }

  ghost predicate LevelInv(lv: Level) {
    && MapInv(lv.grid)
    && RoomsInv(lv.rooms)
    && LinksInv(lv.grid, lv.rooms)
    && ObjectsInv(lv.grid, lv.objects, lv.rooms)
    && OpenInv(lv.grid, lv.rooms)
    && CrowdInv(lv.objects, lv.rooms)
  }

  function InitialLevel(): (lv: Level)
    ensures LevelInv(lv)
  {
    var g := InitialMap();
    assert forall x, y :: InMap(x, y) ==> g[x][y].blocked;
    Level(g, [InitialPlayer], [])
  }

  // --------------------------------------------------------------- make_map

  /** Populate the carved room and append it to the accepted rooms. */
  function PlaceAndAppend(g: Grid, objs: seq<Object>, rooms: seq<Rect>, room: Rect, rng: seq<int>): (r: Result<Step>)
    requires WellFormed(g) && RectInMap(room)
    ensures r.Ok? ==> r.value.level.grid == g && r.value.level.rooms == rooms + [room]
    ensures r.Ok? ==> PlaceObjects(g, objs, room, rng).Ok?
    ensures r.Ok? ==> r.value.level.objects == PlaceObjects(g, objs, room, rng).value.objects
    ensures r.Ok? ==> |objs| <= |r.value.level.objects| && r.value.level.objects[..|objs|] == objs
    ensures r.Ok? ==> |r.value.level.objects| <= |objs| + MaxRoomMonsters
    ensures r.Ok? ==> PlacedAfter(g, objs, r.value.level.objects, room)
  {
    var p :- PlaceObjects(g, objs, room, rng);
    Ok(Step(Level(g, p.objects, rooms + [room]), p.rest))
  }

  /** The tiles accepting `room` after `rooms` carves: the room's interior and,
      for every room but the first, the corridor from the previous room's
      centre with its legs in the coin's order. */
  predicate CarvedBy(rooms: seq<Rect>, room: Rect, hFirst: bool, x: int, y: int) {
    || InInterior(x, y, room)
    || (|rooms| > 0 && OnLegs(Center(rooms[|rooms| - 1]), Center(room), hFirst, x, y))
  }

  /** What populating the room leaves of the object list `base` built from
      `objs`: every object but the first as it was, and monsters placed in the
      room after them. */
  lemma AppendFacts(g: Grid, base: seq<Object>, objs: seq<Object>, objs': seq<Object>, room: Rect)
    requires WellFormed(g) && PlacedAfter(g, base, objs', room)
    requires |base| == |objs| >= 1 && forall i :: 1 <= i < |objs| ==> base[i] == objs[i]
    ensures objs'[0] == base[0]
    ensures forall i :: 1 <= i < |objs| ==> objs'[i] == objs[i]
    ensures forall i :: |objs| <= i < |objs'| ==> NewlyPlaced(g, objs', i, room)
  {
    assert forall i :: 0 <= i < |base| ==> objs'[i] == objs'[..|base|][i];
  }

  /** The carving for an accepted room: its interior, then, for every room but
      the first, the corridor from the previous room's centre. */
  function CarveAccepted(g: Grid, rooms: seq<Rect>, room: Rect, hFirst: bool): (g': Grid)
    requires WellFormed(g) && Fits(room)
    requires forall i :: 0 <= i < |rooms| ==> Fits(rooms[i])
    ensures Widens(g, g')
    ensures forall x, y :: InMap(x, y) ==>
      g'[x][y] == (if CarvedBy(rooms, room, hFirst, x, y) then Opened(g[x][y]) else g[x][y])
    ensures forall x, y :: InInterior(x, y, room) ==> Passable(g', x, y)
    ensures |rooms| > 0 ==> LegsOpen(g', Center(rooms[|rooms| - 1]), Center(room), hFirst)
  {
    FitsCarvesInner(room);
    var g1 := CreateRoom(g, room);
    assert Widens(g, g1);
    if |rooms| == 0 then g1
    else
      var prev := rooms[|rooms| - 1];
      FitsCarvesInner(prev);
      var g2 := Connect(g1, Center(prev), Center(room), hFirst);
      WidensPreserves(g1, g2);
      WidensTransitive(g, g1, g2);
      RoomThenCorridor(g, g1, g2, rooms, room, hFirst);
      g2
  }

  /** Carving the room and then the corridor opens exactly the tiles
      `CarvedBy` names. */
  lemma RoomThenCorridor(g: Grid, g1: Grid, g2: Grid, rooms: seq<Rect>, room: Rect, hFirst: bool)
    requires WellFormed(g) && WellFormed(g1) && WellFormed(g2) && |rooms| > 0
    requires forall x, y :: InMap(x, y) ==>
      g1[x][y] == (if InInterior(x, y, room) then Opened(g[x][y]) else g[x][y])
    requires forall x, y :: InMap(x, y) ==>
      g2[x][y] == (if OnLegs(Center(rooms[|rooms| - 1]), Center(room), hFirst, x, y) then Opened(g1[x][y]) else g1[x][y])
    ensures forall x, y :: InMap(x, y) ==>
      g2[x][y] == (if CarvedBy(rooms, room, hFirst, x, y) then Opened(g[x][y]) else g[x][y])
  {
  }

  /** Carve an accepted room, move the player to it or join it to the previous
      room, and populate it. Only a room after the first draws the coin. */
  function AcceptRoom(lv: Level, room: Rect, rng: seq<int>): (r: Result<Step>)
    requires WellFormed(lv.grid) && Fits(room) && |lv.objects| >= 1
    requires forall i :: 0 <= i < |lv.rooms| ==> Fits(lv.rooms[i])
    ensures r.Ok? ==> r.value.level.rooms == lv.rooms + [room]
    ensures r.Ok? && |lv.rooms| > 0 ==> |rng| >= 1 && 0 <= rng[0] <= 1
    ensures r.Ok? ==> r.value.level.grid == CarveAccepted(lv.grid, lv.rooms, room, |lv.rooms| > 0 && rng[0] == 1)
    ensures r.Ok? ==> |lv.objects| <= |r.value.level.objects| <= |lv.objects| + MaxRoomMonsters
    ensures r.Ok? && |lv.rooms| == 0 ==>
      r.value.level.objects[0] == lv.objects[0].(x := Center(room).0, y := Center(room).1)
    ensures r.Ok? && |lv.rooms| > 0 ==> r.value.level.objects[0] == lv.objects[0]
    ensures r.Ok? ==> forall i :: 1 <= i < |lv.objects| ==> r.value.level.objects[i] == lv.objects[i]
    ensures r.Ok? ==> forall i :: |lv.objects| <= i < |r.value.level.objects| ==>
      NewlyPlaced(r.value.level.grid, r.value.level.objects, i, room)
  {
    if |lv.rooms| == 0 then
      var g1 := CarveAccepted(lv.grid, lv.rooms, room, false);
      var c := Center(room);
      var base := lv.objects[0 := lv.objects[0].(x := c.0, y := c.1)];
      var r := PlaceAndAppend(g1, base, lv.rooms, room, rng);
      if r.Ok? then
        AppendFacts(g1, base, lv.objects, r.value.level.objects, room);
        r
      else r
    else
      var coin :- Draw(rng, 0, 1);
      var g2 := CarveAccepted(lv.grid, lv.rooms, room, coin.v == 1);
      var r := PlaceAndAppend(g2, lv.objects, lv.rooms, room, coin.rest);
      if r.Ok? then
        AppendFacts(g2, lv.objects, lv.objects, r.value.level.objects, room);
        r
      else r
  }

  /** The accept branch's result `r` has the object list and the leftover
      draws of `place_objects`'s result `p`, and fails exactly when it does. */
  ghost predicate Populates(r: Result<Step>, p: Result<Placed>) {
    && (r.Ok? <==> p.Ok?)
    && (r.Ok? ==> r.value.level.objects == p.value.objects && r.value.rest == p.value.rest)
  }

  /** The draws the accept branch uses. For the first room there is no coin:
      the player moves to the room's centre and `place_objects` gets the whole
      stream. A later room first draws the coin in `[0, 1]` that orders the
      corridor's legs, and `place_objects` gets the draws after it. */
  lemma AcceptRoomDraws(lv: Level, room: Rect, rng: seq<int>)
    requires WellFormed(lv.grid) && Fits(room) && |lv.objects| >= 1
    requires forall i :: 0 <= i < |lv.rooms| ==> Fits(lv.rooms[i])
    ensures |lv.rooms| == 0 ==>
      var moved := lv.objects[0 := lv.objects[0].(x := Center(room).0, y := Center(room).1)];
      Populates(AcceptRoom(lv, room, rng), PlaceObjects(CarveAccepted(lv.grid, lv.rooms, room, false), moved, room, rng))
    ensures |lv.rooms| > 0 && AcceptRoom(lv, room, rng).Ok? ==> |rng| >= 1 && 0 <= rng[0] <= 1
    ensures |lv.rooms| > 0 && |rng| >= 1 && 0 <= rng[0] <= 1 ==>
      Populates(AcceptRoom(lv, room, rng), PlaceObjects(CarveAccepted(lv.grid, lv.rooms, room, rng[0] == 1), lv.objects, room, rng[1..]))
  {
  }

  /** A room after the first whose monster count draw is 0 is accepted, with
      either coin, consuming just the coin and the count. */
  lemma EmptyLaterRoom(lv: Level, room: Rect, c: int, rest: seq<int>)
    requires WellFormed(lv.grid) && Fits(room) && |lv.objects| >= 1
    requires forall i :: 0 <= i < |lv.rooms| ==> Fits(lv.rooms[i])
    requires |lv.rooms| > 0 && 0 <= c <= 1
    ensures AcceptRoom(lv, room, [c, 0] + rest).Ok?
    ensures AcceptRoom(lv, room, [c, 0] + rest).value.rest == rest
    ensures AcceptRoom(lv, room, [c, 0] + rest).value.level.objects == lv.objects
  {
    var rng := [c, 0] + rest;
    AcceptRoomDraws(lv, room, rng);
    assert rng[1..] == [0] + rest && rng[2..] == rest;
  }

  /** The room an attempt samples from its first four draws: width, height,
      then the `x` and `y` of the top-left corner. */
  function Candidate(rng: seq<int>): Rect
    requires |rng| >= 4
  {
    MakeRect(rng[2], rng[3], rng[0], rng[1])
  }

  /** The first four draws are a width and height in the room size range and
      a corner that keeps the room one tile short of the map's far edges. */
  predicate SampleInRange(rng: seq<int>) {
    && |rng| >= 4
    && RoomMinSize <= rng[0] <= RoomMaxSize && RoomMinSize <= rng[1] <= RoomMaxSize
    && 0 <= rng[2] <= MapWidth - rng[0] - 1 && 0 <= rng[3] <= MapHeight - rng[1] - 1
  }

  /** One iteration of the room loop of `make_map`: the sampled room is kept
      exactly when it meets no accepted room, and a rejected room changes
      nothing and consumes only its four draws. */
  function TryRoom(lv: Level, rng: seq<int>): (r: Result<Step>)
    requires LevelInv(lv)
    ensures r.Ok? ==> LevelInv(r.value.level)
    ensures r.Ok? ==> SampleInRange(rng) && Fits(Candidate(rng))
    ensures SampleInRange(rng) && AnyIntersect(Candidate(rng), lv.rooms) ==> r == Ok(Step(lv, rng[4..]))
    ensures SampleInRange(rng) && !AnyIntersect(Candidate(rng), lv.rooms) ==>
      Fits(Candidate(rng)) && r == AcceptRoom(lv, Candidate(rng), rng[4..])
    ensures r.Ok? ==>
      r.value.level.rooms == (if AnyIntersect(Candidate(rng), lv.rooms) then lv.rooms else lv.rooms + [Candidate(rng)])
  {
    var w :- Draw(rng, RoomMinSize, RoomMaxSize);
    var h :- Draw(w.rest, RoomMinSize, RoomMaxSize);
    var x :- Draw(h.rest, 0, MapWidth - w.v - 1);
    var y :- Draw(x.rest, 0, MapHeight - h.v - 1);
    var room := MakeRect(x.v, y.v, w.v, h.v);
    assert room == Candidate(rng);
    if AnyIntersect(room, lv.rooms) then Ok(Step(lv, y.rest))
    else
      AcceptRoomKeepsInv(lv, room, y.rest);
      AcceptRoom(lv, room, y.rest)
  }

  /** The rooms the loop of `make_map` keeps when it tries `cands` in order
      after `rooms`: each candidate that meets no room kept so far. */
  function Greedy(rooms: seq<Rect>, cands: seq<Rect>): seq<Rect>
    decreases |cands|
  {
    if |cands| == 0 then rooms
    else Greedy(if AnyIntersect(cands[0], rooms) then rooms else rooms + [cands[0]], cands[1..])
  }

  /** Every room in `rs` fits the map. */
  predicate AllFit(rs: seq<Rect>)
    decreases |rs|
  {
    |rs| == 0 || (Fits(rs[0]) && AllFit(rs[1..]))
  }

  lemma {:induction false} AllFitEach(rs: seq<Rect>)
    requires AllFit(rs)
    ensures forall k :: 0 <= k < |rs| ==> Fits(rs[k])
    decreases |rs|
  {
    if |rs| > 0 {
      AllFitEach(rs[1..]);
      assert forall k :: 1 <= k < |rs| ==> rs[k] == rs[1..][k - 1];
    }
  }

  /** A level after some attempts, the draws left, and the rooms tried, in
      order. */
  datatype Run = Run(level: Level, rest: seq<int>, tried: seq<Rect>)

  /** The remaining `n` iterations of the room loop of `make_map`. Each tries
      the room sampled from its draws, and the rooms kept are the greedy
      selection from those tried. */
  function Attempts(n: nat, lv: Level, rng: seq<int>): (r: Result<Run>)
    requires LevelInv(lv)
    ensures r.Ok? ==> LevelInv(r.value.level)
    ensures r.Ok? ==> |r.value.tried| == n && AllFit(r.value.tried)
    ensures r.Ok? ==> r.value.level.rooms == Greedy(lv.rooms, r.value.tried)
    ensures r.Ok? && n > 0 ==> |rng| >= 4 && r.value.tried[0] == Candidate(rng)
    decreases n
  {
    if n == 0 then Ok(Run(lv, rng, []))
    else
      var s :- TryRoom(lv, rng);
      var t :- Attempts(n - 1, s.level, s.rest);
      var tried := [Candidate(rng)] + t.tried;
      GreedyCons(lv.rooms, Candidate(rng), t.tried);
      assert tried[1..] == t.tried;
      Ok(Run(t.level, t.rest, tried))
  }

  /** `make_map`: the map, the object list with the player first, and the
      accepted rooms in acceptance order. These are the greedy selection from
      the `MaxRooms` rooms sampled, the first sampled from the first four
      draws; every room tried was kept or meets a kept room. The first
      attempt meets no earlier room, so there is always at least one room. */
  function MakeMap(rng: seq<int>): (r: Result<Level>)
    ensures r.Ok? ==> LevelInv(r.value)
    ensures r.Ok? ==> 1 <= |r.value.rooms| <= MaxRooms
    ensures r.Ok? ==> |rng| >= 4 && exists tried: seq<Rect> ::
      && |tried| == MaxRooms && tried[0] == Candidate(rng)
      && (forall k :: 0 <= k < |tried| ==> Fits(tried[k]))
      && r.value.rooms == Greedy([], tried)
      && (forall k :: 0 <= k < |tried| ==> tried[k] in r.value.rooms || AnyIntersect(tried[k], r.value.rooms))
  {
    var s :- Attempts(MaxRooms, InitialLevel(), rng);
    GreedyCount([], s.tried);
    GreedyMaximal([], s.tried);
    AllFitEach(s.tried);
    Ok(s.level)
  }

  /** `make_map` is the 30 attempts of the room loop run from the all-wall
      map and the lone player: it succeeds exactly when they do and returns
      their level, so `TryRoom` and `AttemptsStep` pin every room tried to
      its own draws. */
  lemma MakeMapRunsAttempts(rng: seq<int>)
    ensures MakeMap(rng).Ok? <==> Attempts(MaxRooms, InitialLevel(), rng).Ok?
    ensures MakeMap(rng).Ok? ==> MakeMap(rng).value == Attempts(MaxRooms, InitialLevel(), rng).value.level
  {
  }

  lemma GreedyCons(rooms: seq<Rect>, c: Rect, cands: seq<Rect>)
    ensures Greedy(rooms, [c] + cands) ==
      Greedy(if AnyIntersect(c, rooms) then rooms else rooms + [c], cands)
  {
    assert ([c] + cands)[1..] == cands;
  }

  /** Draws for `k` attempts that each sample the 6 × 6 room in the map's
      top-left corner. */
  function Resample(k: nat): (rng: seq<int>)
    ensures |rng| == 4 * k
  {
    if k == 0 then [] else [6, 6, 0, 0] + Resample(k - 1)
  }

  /** Attempts that sample a room already accepted are all rejected and leave
      the level as it was. */
  lemma {:induction false} RejectedAttempts(k: nat, lv: Level)
    requires LevelInv(lv) && |lv.rooms| >= 1 && lv.rooms[0] == MakeRect(0, 0, 6, 6)
    ensures Attempts(k, lv, Resample(k)).Ok?
    ensures Attempts(k, lv, Resample(k)).value.level == lv
  {
    if k > 0 {
      RejectedAttempts(k - 1, lv);
      RejectedStep(k, lv);
    }
  }

  /** One more rejected resample in front of attempts that leave the level
      unchanged still leaves it unchanged. */
  lemma RejectedStep(k: nat, lv: Level)
    requires LevelInv(lv) && |lv.rooms| >= 1 && lv.rooms[0] == MakeRect(0, 0, 6, 6) && k > 0
    requires Attempts(k - 1, lv, Resample(k - 1)).Ok? && Attempts(k - 1, lv, Resample(k - 1)).value.level == lv
    ensures Attempts(k, lv, Resample(k)).Ok? && Attempts(k, lv, Resample(k)).value.level == lv
  {
    ResampleRejected(k, lv);
    AttemptsStep(k, lv, Resample(k));
  }

  /** One resample of the corner room is rejected: the level is unchanged
      and exactly the four size and position draws are used. */
  lemma ResampleRejected(k: nat, lv: Level)
    requires LevelInv(lv) && |lv.rooms| >= 1 && lv.rooms[0] == MakeRect(0, 0, 6, 6) && k > 0
    ensures TryRoom(lv, Resample(k)) == Ok(Step(lv, Resample(k - 1)))
  {
    ResampleDraws(k);
    assert AnyIntersect(MakeRect(0, 0, 6, 6), lv.rooms) by {
      assert Intersect(MakeRect(0, 0, 6, 6), lv.rooms[0]);
    }
  }

  /** Each resample draws the 6 × 6 corner room with in-range values and
      leaves the next resample. */
  lemma ResampleDraws(k: nat)
    requires k > 0
    ensures SampleInRange(Resample(k)) && Candidate(Resample(k)) == MakeRect(0, 0, 6, 6)
    ensures Resample(k)[4..] == Resample(k - 1)
  {
    var rng := Resample(k);
    assert rng[0] == 6 && rng[1] == 6 && rng[2] == 0 && rng[3] == 0;
  }

  /** The first attempt keeps the 6 × 6 room in the map's corner when its
      draws sample it and the next draw asks for no monsters. */
  lemma FirstAttemptKeeps(lv: Level, rest: seq<int>)
    requires LevelInv(lv) && |lv.rooms| == 0
    ensures var s := TryRoom(lv, [6, 6, 0, 0, 0] + rest);
      s.Ok? && s.value.rest == rest && s.value.level.rooms == [MakeRect(0, 0, 6, 6)]
  {
    var rng := [6, 6, 0, 0, 0] + rest;
    var room := MakeRect(0, 0, 6, 6);
    assert rng[0] == 6 && rng[1] == 6 && rng[2] == 0 && rng[3] == 0 && rng[4] == 0;
    assert rng[4..] == [0] + rest && rng[5..] == rest;
    assert SampleInRange(rng) && Candidate(rng) == room;
    EmptyFirstRoom(lv, room, rest);
    assert TryRoom(lv, rng) == AcceptRoom(lv, room, rng[4..]);
  }

  /** A first room whose monster count draw is 0 is accepted, consuming only
      that draw. */
  lemma EmptyFirstRoom(lv: Level, room: Rect, rest: seq<int>)
    requires WellFormed(lv.grid) && Fits(room) && |lv.objects| >= 1 && |lv.rooms| == 0
    ensures AcceptRoom(lv, room, [0] + rest).Ok?
    ensures AcceptRoom(lv, room, [0] + rest).value.rest == rest
  {
    assert ([0] + rest)[1..] == rest;
  }

  /** `make_map` succeeds on some draws: the first attempt keeps a 6 × 6 room
      with no monsters, and the `k` = 29 others sample that room again. */
  lemma MakeMapSucceeds(k: nat)
    requires k == MaxRooms - 1
    ensures MakeMap([6, 6, 0, 0, 0] + Resample(k)).Ok?
    ensures |MakeMap([6, 6, 0, 0, 0] + Resample(k)).value.rooms| == 1
  {
    OneRoomAttempts(k, InitialLevel());
  }

  /** From a level with no rooms, the draws of `MakeMapSucceeds` keep the
      corner room and then reject `k` resamples of it. */
  lemma OneRoomAttempts(k: nat, lv0: Level)
    requires LevelInv(lv0) && |lv0.rooms| == 0
    ensures var r := Attempts(k + 1, lv0, [6, 6, 0, 0, 0] + Resample(k));
      r.Ok? && r.value.level.rooms == [MakeRect(0, 0, 6, 6)]
  {
    var rng := [6, 6, 0, 0, 0] + Resample(k);
    FirstAttemptKeeps(lv0, Resample(k));
    RejectedAttempts(k, TryRoom(lv0, rng).value.level);
    AttemptsStep(k + 1, lv0, rng);
  }

  /** An iteration of the room loop that succeeds hands its level and its
      leftover draws to the remaining iterations. */
  lemma AttemptsStep(n: nat, lv: Level, rng: seq<int>)
    requires LevelInv(lv) && n > 0 && TryRoom(lv, rng).Ok?
    ensures var s := TryRoom(lv, rng).value;
      && (Attempts(n, lv, rng).Ok? <==> Attempts(n - 1, s.level, s.rest).Ok?)
      && (Attempts(n, lv, rng).Ok? ==> Attempts(n, lv, rng).value.level == Attempts(n - 1, s.level, s.rest).value.level)
  {
  }

  /** `place_objects` with a monster count draw `n` runs `n` attempts on the
      draws after it. */
  lemma PlaceObjectsCount(g: Grid, objs: seq<Object>, room: Rect, n: int, rest: seq<int>)
    requires WellFormed(g) && RectInMap(room) && 0 <= n <= MaxRoomMonsters
    ensures PlaceObjects(g, objs, room, [n] + rest) == PlaceMonsters(g, objs, room, n, rest)
  {
    assert ([n] + rest)[1..] == rest;
  }

  /** A first room whose count draw is 1 and whose one attempt draws a free
      interior tile other than the centre gets exactly that monster. */
  lemma OneMonsterFirstRoom(lv: Level, room: Rect, x: int, y: int, c: int, rest: seq<int>)
    requires WellFormed(lv.grid) && Fits(room) && lv.objects == [InitialPlayer] && lv.rooms == []
    requires InInterior(x, y, room) && (x, y) != Center(room) && 0 <= c <= 100
    ensures var r := AcceptRoom(lv, room, [1, x, y, c] + rest);
      && r.Ok? && r.value.rest == rest
      && r.value.level.objects == [InitialPlayer.(x := Center(room).0, y := Center(room).1), NewMonster(x, y, c)]
  {
    AcceptRoomDraws(lv, room, [1, x, y, c] + rest);
    var moved := [InitialPlayer.(x := Center(room).0, y := Center(room).1)];
    assert lv.objects[0 := lv.objects[0].(x := Center(room).0, y := Center(room).1)] == moved;
    OneMonsterPlaced(lv.grid, room, x, y, c, rest);
  }

  /** In a freshly carved first room, count draw 1 and a free interior tile
      other than the centre place exactly one monster there. */
  lemma OneMonsterPlaced(g: Grid, room: Rect, x: int, y: int, c: int, rest: seq<int>)
    requires WellFormed(g) && Fits(room)
    requires InInterior(x, y, room) && (x, y) != Center(room) && 0 <= c <= 100
    ensures var moved := [InitialPlayer.(x := Center(room).0, y := Center(room).1)];
      PlaceObjects(CarveAccepted(g, [], room, false), moved, room, [1, x, y, c] + rest)
        == Ok(Placed(moved + [NewMonster(x, y, c)], rest))
  {
    var moved := [InitialPlayer.(x := Center(room).0, y := Center(room).1)];
    var g1 := CarveAccepted(g, [], room, false);
    assert CarvedBy([], room, false, x, y);
    assert !IsBlocked(g1, moved, x, y);
    assert [1, x, y, c] + rest == [1] + ([x, y, c] + rest);
    PlaceObjectsCount(g1, moved, room, 1, [x, y, c] + rest);
    PlaceOnFreeSpot(g1, moved, room, x, y, c, rest);
  }

  /** An attempt after the first whose room meets no accepted room and whose
      count draw is 0 keeps the room, leaves the objects as they were, and
      uses six draws. */
  lemma KeptAttempt(lv: Level, rng: seq<int>)
    requires LevelInv(lv) && |lv.rooms| > 0
    requires SampleInRange(rng) && !AnyIntersect(Candidate(rng), lv.rooms)
    requires |rng| >= 6 && 0 <= rng[4] <= 1 && rng[5] == 0
    ensures var s := TryRoom(lv, rng);
      && s.Ok? && s.value.rest == rng[6..] && s.value.level.objects == lv.objects
      && s.value.level.rooms == lv.rooms + [Candidate(rng)]
  {
    CoinThenNoMonsters(rng);
    EmptyLaterRoom(lv, Candidate(rng), rng[4], rng[6..]);
  }

  /** After the four room draws, a coin and a zero count leave the rest. */
  lemma CoinThenNoMonsters(rng: seq<int>)
    requires |rng| >= 6 && rng[5] == 0
    ensures rng[4..] == [rng[4], 0] + rng[6..]
  {
  }

  /** The first attempt keeps the 6 × 6 room at the map's corner and puts an
      orc on its free tile `(2, 2)`, next to the player at the centre. */
  lemma FirstRoomWithMonster(lv: Level, rest: seq<int>)
    requires LevelInv(lv) && |lv.rooms| == 0
    ensures var s := TryRoom(lv, [6, 6, 0, 0, 1, 2, 2, 50] + rest);
      && s.Ok? && s.value.rest == rest && s.value.level.rooms == [MakeRect(0, 0, 6, 6)]
      && s.value.level.objects == [InitialPlayer.(x := 3, y := 3), NewMonster(2, 2, 50)]
  {
    var rng := [6, 6, 0, 0, 1, 2, 2, 50] + rest;
    EmptyLevel(lv);
    FirstDraws(rest);
    assert TryRoom(lv, rng) == AcceptRoom(lv, MakeRect(0, 0, 6, 6), [1, 2, 2, 50] + rest);
    OneMonsterFirstRoom(lv, MakeRect(0, 0, 6, 6), 2, 2, 50, rest);
  }

  /** A level that satisfies the invariant and has no rooms yet holds only
      the player, at its starting place. */
  lemma EmptyLevel(lv: Level)
    requires LevelInv(lv) && |lv.rooms| == 0
    ensures lv.rooms == [] && lv.objects == [InitialPlayer] && WellFormed(lv.grid)
  {
  }

  /** The draws of the first attempt of `MakeMapPopulated`: the 6 × 6 corner
      room, whose interior holds `(2, 2)` away from its centre, then one
      monster. */
  lemma FirstDraws(rest: seq<int>)
    ensures var s := [6, 6, 0, 0, 1, 2, 2, 50] + rest;
      && SampleInRange(s) && Candidate(s) == MakeRect(0, 0, 6, 6)
      && s[4..] == [1, 2, 2, 50] + rest
      && InInterior(2, 2, MakeRect(0, 0, 6, 6)) && Center(MakeRect(0, 0, 6, 6)) == (3, 3)
  {
    var s := [6, 6, 0, 0, 1, 2, 2, 50] + rest;
    assert s[..8] == [6, 6, 0, 0, 1, 2, 2, 50];
    assert s[4..] == [1, 2, 2, 50] + rest;
  }

  /** The draws of the second attempt of `MakeMapPopulated`: the 6 × 6 room
      at `x = 10`, which meets no part of the corner room, coin 0 and no
      monsters. */
  lemma SecondDraws(k: nat)
    ensures var s := [6, 6, 10, 0, 0, 0] + Resample(k);
      && SampleInRange(s) && Candidate(s) == MakeRect(10, 0, 6, 6)
      && |s| >= 6 && s[4] == 0 && s[5] == 0 && s[6..] == Resample(k)
      && !AnyIntersect(MakeRect(10, 0, 6, 6), [MakeRect(0, 0, 6, 6)])
  {
    var s := [6, 6, 10, 0, 0, 0] + Resample(k);
    assert s[..6] == [6, 6, 10, 0, 0, 0];
    assert !Intersect(MakeRect(10, 0, 6, 6), MakeRect(0, 0, 6, 6));
  }

  /** After the corner room, the draws of `MakeMapPopulated` keep the room
      at `x = 10` with no monsters and then reject `k` resamples of the
      corner room. */
  lemma SecondRoomAttempts(k: nat, lv1: Level)
    requires LevelInv(lv1) && lv1.rooms == [MakeRect(0, 0, 6, 6)]
    ensures var r := Attempts(k + 1, lv1, [6, 6, 10, 0, 0, 0] + Resample(k));
      && r.Ok? && r.value.level.rooms == lv1.rooms + [MakeRect(10, 0, 6, 6)]
      && r.value.level.objects == lv1.objects
  {
    var second := [6, 6, 10, 0, 0, 0] + Resample(k);
    SecondDraws(k);
    KeptAttempt(lv1, second);
    var lv2 := TryRoom(lv1, second).value.level;
    RejectedAttempts(k, lv2);
    AttemptsStep(k + 1, lv1, second);
  }

  /** From a level with no room yet, the draws of `MakeMapPopulated` keep
      the corner room with its orc, then the room at `x = 10`, and then
      reject `k` resamples of the corner room. */
  lemma TwoRoomAttempts(k: nat, lv0: Level)
    requires LevelInv(lv0) && |lv0.rooms| == 0
    ensures var r := Attempts(k + 2, lv0, [6, 6, 0, 0, 1, 2, 2, 50] + ([6, 6, 10, 0, 0, 0] + Resample(k)));
      && r.Ok? && r.value.level.rooms == [MakeRect(0, 0, 6, 6)] + [MakeRect(10, 0, 6, 6)]
      && r.value.level.objects == [InitialPlayer.(x := 3, y := 3), NewMonster(2, 2, 50)]
  {
    var second := [6, 6, 10, 0, 0, 0] + Resample(k);
    var rng := [6, 6, 0, 0, 1, 2, 2, 50] + second;
    FirstRoomWithMonster(lv0, second);
    SecondRoomAttempts(k, TryRoom(lv0, rng).value.level);
    AttemptsStep(k + 2, lv0, rng);
  }

  /** `make_map` can succeed with a corridor and a monster: two rooms, the
      first holding an orc, and `k` = 28 further attempts that resample the
      first room. */
  lemma MakeMapPopulated(k: nat)
    requires k == MaxRooms - 2
    ensures var r := MakeMap([6, 6, 0, 0, 1, 2, 2, 50] + ([6, 6, 10, 0, 0, 0] + Resample(k)));
      && r.Ok? && |r.value.rooms| == 2 && |r.value.objects| == 2
      && r.value.objects[1] == NewMonster(2, 2, 50)
  {
    TwoRoomAttempts(k, InitialLevel());
  }

  /** The greedy selection only appends, at most one room per candidate, and
      keeps the first candidate when nothing was kept before. */
  lemma {:induction false} GreedyCount(rooms: seq<Rect>, cands: seq<Rect>)
    ensures rooms <= Greedy(rooms, cands)
    ensures |Greedy(rooms, cands)| <= |rooms| + |cands|
    ensures |rooms| == 0 && |cands| > 0 ==> |Greedy(rooms, cands)| >= 1
    decreases |cands|
  {
    if |cands| > 0 {
      var next := if AnyIntersect(cands[0], rooms) then rooms else rooms + [cands[0]];
      GreedyCount(next, cands[1..]);
    }
  }

  /** Every candidate the greedy selection drops meets a room it keeps. */
  lemma {:induction false} GreedyMaximal(rooms: seq<Rect>, cands: seq<Rect>)
    ensures forall k :: 0 <= k < |cands| ==>
      cands[k] in Greedy(rooms, cands) || AnyIntersect(cands[k], Greedy(rooms, cands))
    decreases |cands|
  {
    if |cands| > 0 {
      var next := if AnyIntersect(cands[0], rooms) then rooms else rooms + [cands[0]];
      var out := Greedy(rooms, cands);
      assert out == Greedy(next, cands[1..]);
      GreedyMaximal(next, cands[1..]);
      GreedyCount(next, cands[1..]);
      forall k | 0 <= k < |cands|
        ensures cands[k] in out || AnyIntersect(cands[k], out)
      {
        if k == 0 {
          if AnyIntersect(cands[0], rooms) {
            var i :| 0 <= i < |rooms| && Intersect(cands[0], rooms[i]);
            assert out[i] == rooms[i];
          } else {
            assert out[|rooms|] == cands[0];
          }
        } else {
          assert cands[k] == cands[1..][k - 1];
        }
      }
    }
  }

  /** The greedy selection from fitting candidates keeps the rooms fitting and
      pairwise non-intersecting. */
  lemma {:induction false} GreedyDisjoint(rooms: seq<Rect>, cands: seq<Rect>)
    requires RoomsInv(rooms) && forall k :: 0 <= k < |cands| ==> Fits(cands[k])
    ensures RoomsInv(Greedy(rooms, cands))
    decreases |cands|
  {
    if |cands| > 0 {
      if !AnyIntersect(cands[0], rooms) {
        RoomsStep(rooms, cands[0]);
      }
      var next := if AnyIntersect(cands[0], rooms) then rooms else rooms + [cands[0]];
      assert forall k :: 0 <= k < |cands| - 1 ==> cands[1..][k] == cands[k + 1];
      GreedyDisjoint(next, cands[1..]);
    }
  }

  /** The layout of every generated level, spelled out: rooms that fit the
      map and meet no other room; each room's interior open and joined to the
      room before by an open corridor; every open tile inside a room or on a
      route between consecutive centres; sight blocking equal to passability
      blocking, nothing explored, and the outer ring wall. */
  lemma MakeMapLayout(rng: seq<int>)
    ensures MakeMap(rng).Ok? ==> var lv := MakeMap(rng).value;
      && 1 <= |lv.rooms| <= MaxRooms
      && (forall i :: 0 <= i < |lv.rooms| ==> Fits(lv.rooms[i]))
      && (forall i, j :: 0 <= i < j < |lv.rooms| ==> !Intersect(lv.rooms[i], lv.rooms[j]))
      && WellFormed(lv.grid)
      && (forall i, x, y :: 0 <= i < |lv.rooms| && InInterior(x, y, lv.rooms[i]) ==> Passable(lv.grid, x, y))
      && (forall i :: 0 < i < |lv.rooms| ==> Linked(lv.grid, Center(lv.rooms[i - 1]), Center(lv.rooms[i])))
      && (forall x, y :: InMap(x, y) && !lv.grid[x][y].blocked ==>
            || (exists i :: 0 <= i < |lv.rooms| && InInterior(x, y, lv.rooms[i]))
            || (exists i :: 0 < i < |lv.rooms| && OnRoute(Center(lv.rooms[i - 1]), Center(lv.rooms[i]), x, y)))
      && Consistent(lv.grid) && NoneExplored(lv.grid) && BorderBlocked(lv.grid)
  {
    if MakeMap(rng).Ok? {
      var lv := MakeMap(rng).value;
      assert LevelInv(lv);
    }
  }

  /** The objects of every generated level, spelled out: the player first, at
      the first room's centre; at most `MaxRoomMonsters` monsters in each
      room's bounds, each blocking, on a passable tile inside some room; and
      no two objects on one tile. */
  lemma MakeMapPopulation(rng: seq<int>)
    ensures MakeMap(rng).Ok? ==> var lv := MakeMap(rng).value;
      && |lv.rooms| >= 1 && |lv.objects| >= 1 && lv.objects[0].name == "player"
      && At(lv.objects[0], Center(lv.rooms[0]).0, Center(lv.rooms[0]).1)
      && (forall j :: 0 <= j < |lv.rooms| ==> CountIn(lv.objects[1..], lv.rooms[j]) <= MaxRoomMonsters)
      && (forall i :: 1 <= i < |lv.objects| ==>
            lv.objects[i].blocks && IsMonsterName(lv.objects[i].name) && Passable(lv.grid, lv.objects[i].x, lv.objects[i].y))
      && (forall i :: 1 <= i < |lv.objects| ==> InSomeRoom(lv.objects[i].x, lv.objects[i].y, lv.rooms))
      && (forall i, j :: 0 <= i < j < |lv.objects| ==> !At(lv.objects[j], lv.objects[i].x, lv.objects[i].y))
  {
    if MakeMap(rng).Ok? {
      var lv := MakeMap(rng).value;
      assert LevelInv(lv);
    }
  }

  /** Accepting a room that fits and meets no accepted room keeps every
      invariant of the level. */
  lemma AcceptRoomKeepsInv(lv: Level, room: Rect, rng: seq<int>)
    requires LevelInv(lv) && Fits(room)
    requires forall i :: 0 <= i < |lv.rooms| ==> !Intersect(room, lv.rooms[i])
    ensures AcceptRoom(lv, room, rng).Ok? ==> LevelInv(AcceptRoom(lv, room, rng).value.level)
  {
    var r := AcceptRoom(lv, room, rng);
    if r.Ok? {
      var lv' := r.value.level;
      var hFirst := |lv.rooms| > 0 && rng[0] == 1;
      assert lv'.grid == CarveAccepted(lv.grid, lv.rooms, room, hFirst);
      TerrainStep(lv, room, hFirst);
      ObjectsStep(lv, lv'.grid, lv'.objects, room);
      NewlyInRoom(lv'.grid, lv'.objects, |lv.objects|, room);
      CrowdStep(lv, lv'.objects, room);
      assert lv' == Level(lv'.grid, lv'.objects, lv.rooms + [room]);
    }
  }

  /** The terrain half of the invariant survives carving an accepted room:
      the map's flags, disjoint fitting rooms, carved interiors and links,
      and every open tile accounted for. */
  lemma TerrainStep(lv: Level, room: Rect, hFirst: bool)
    requires LevelInv(lv) && Fits(room)
    requires forall i :: 0 <= i < |lv.rooms| ==> !Intersect(room, lv.rooms[i])
    ensures var g' := CarveAccepted(lv.grid, lv.rooms, room, hFirst);
      && MapInv(g') && RoomsInv(lv.rooms + [room])
      && LinksInv(g', lv.rooms + [room]) && OpenInv(g', lv.rooms + [room])
  {
    var g' := CarveAccepted(lv.grid, lv.rooms, room, hFirst);
    WidensPreserves(lv.grid, g');
    RoomsStep(lv.rooms, room);
    LinksStep(lv.grid, g', lv.rooms, room, hFirst);
    OpenStep(lv.grid, g', lv.rooms, room, hFirst);
  }

  /** Every monster placed after index `from` lies in `room`. */
  lemma NewlyInRoom(g: Grid, objs: seq<Object>, from: nat, room: Rect)
    requires WellFormed(g) && from <= |objs|
    requires forall i :: from <= i < |objs| ==> NewlyPlaced(g, objs, i, room)
    ensures forall i :: from <= i < |objs| ==> InClosed(objs[i].x, objs[i].y, room)
  {
    forall i | from <= i < |objs|
      ensures InClosed(objs[i].x, objs[i].y, room)
    {
      assert NewlyPlaced(g, objs, i, room);
    }
  }

  lemma RoomsStep(rooms: seq<Rect>, room: Rect)
    requires RoomsInv(rooms) && Fits(room)
    requires forall i :: 0 <= i < |rooms| ==> !Intersect(room, rooms[i])
    ensures RoomsInv(rooms + [room])
  {
    var rooms' := rooms + [room];
    forall i, j | 0 <= i < j < |rooms'|
      ensures !Intersect(rooms'[i], rooms'[j])
    {
      if j == |rooms| {
        IntersectSymmetric(room, rooms[i]);
      }
    }
  }

  lemma LinksStep(g: Grid, g': Grid, rooms: seq<Rect>, room: Rect, hFirst: bool)
    requires LinksInv(g, rooms) && Widens(g, g')
    requires forall x, y :: InInterior(x, y, room) ==> Passable(g', x, y)
    requires |rooms| > 0 ==> LegsOpen(g', Center(rooms[|rooms| - 1]), Center(room), hFirst)
    ensures LinksInv(g', rooms + [room])
  {
    var rooms' := rooms + [room];
    WidensPreserves(g, g');
    forall i | 0 < i < |rooms'|
      ensures Linked(g', Center(rooms'[i - 1]), Center(rooms'[i]))
    {
      if i < |rooms| {
        LinkedWidens(g, g', Center(rooms[i - 1]), Center(rooms[i]));
      }
    }
  }

  lemma ObjectsStep(lv: Level, g': Grid, objs': seq<Object>, room: Rect)
    requires ObjectsInv(lv.grid, lv.objects, lv.rooms) && Fits(room) && Widens(lv.grid, g')
    requires forall x, y :: InInterior(x, y, room) ==> Passable(g', x, y)
    requires |lv.objects| <= |objs'| <= |lv.objects| + MaxRoomMonsters
    requires |lv.rooms| > 0 ==> objs'[0] == lv.objects[0]
    requires |lv.rooms| == 0 ==> objs'[0] == lv.objects[0].(x := Center(room).0, y := Center(room).1)
    requires forall i :: 1 <= i < |lv.objects| ==> objs'[i] == lv.objects[i]
    requires forall i :: |lv.objects| <= i < |objs'| ==> NewlyPlaced(g', objs', i, room)
    ensures ObjectsInv(g', objs', lv.rooms + [room])
  {
    var rooms' := lv.rooms + [room];
    var objs := lv.objects;
    WidensPreserves(lv.grid, g');
    FitsCarvesInner(room);
    // Every object blocks; every object after the player is a monster.
    assert InitialPlayer.blocks;
    forall i | 0 <= i < |objs'|
      ensures objs'[i].blocks && (i >= 1 ==> IsMonsterName(objs'[i].name))
    {
      if i >= |objs| {
        assert NewlyPlaced(g', objs', i, room);
      }
    }
    // Every object stands on a passable tile.
    forall i | 0 <= i < |objs'|
      ensures Passable(g', objs'[i].x, objs'[i].y)
    {
      if i >= |objs| {
        assert NewlyPlaced(g', objs', i, room);
      } else if i == 0 && |lv.rooms| == 0 {
        assert InInterior(Center(room).0, Center(room).1, room);
      }
    }
    // Every monster lies in some room.
    forall i | 1 <= i < |objs'|
      ensures InSomeRoom(objs'[i].x, objs'[i].y, rooms')
    {
      if i >= |objs| {
        assert NewlyPlaced(g', objs', i, room);
        assert rooms'[|lv.rooms|] == room;
      } else {
        assert InSomeRoom(objs[i].x, objs[i].y, lv.rooms);
        var j :| 0 <= j < |lv.rooms| && InClosed(objs[i].x, objs[i].y, lv.rooms[j]);
        assert rooms'[j] == lv.rooms[j];
      }
    }
    // No two objects share a tile.
    forall i, j | 0 <= i < j < |objs'|
      ensures !At(objs'[j], objs'[i].x, objs'[i].y)
    {
      if j >= |objs| {
        assert NewlyPlaced(g', objs', j, room);
        assert objs'[..j][i] == objs'[i];
      }
    }
  }

  /** Accepting a room keeps every open tile accounted for. */
  lemma OpenStep(g: Grid, g': Grid, rooms: seq<Rect>, room: Rect, hFirst: bool)
    requires WellFormed(g) && WellFormed(g') && OpenInv(g, rooms)
    requires forall x, y :: InMap(x, y) ==>
      g'[x][y] == (if CarvedBy(rooms, room, hFirst, x, y) then Opened(g[x][y]) else g[x][y])
    ensures OpenInv(g', rooms + [room])
  {
    var rooms' := rooms + [room];
    forall x, y | InMap(x, y) && !g'[x][y].blocked
      ensures || (exists i :: 0 <= i < |rooms'| && InInterior(x, y, rooms'[i]))
              || (exists i :: 0 < i < |rooms'| && OnRoute(Center(rooms'[i - 1]), Center(rooms'[i]), x, y))
    {
      if CarvedBy(rooms, room, hFirst, x, y) {
        assert rooms'[|rooms|] == room;
        if |rooms| > 0 {
          assert rooms'[|rooms| - 1] == rooms[|rooms| - 1];
        }
      } else if exists i :: 0 <= i < |rooms| && InInterior(x, y, rooms[i]) {
        var i :| 0 <= i < |rooms| && InInterior(x, y, rooms[i]);
        assert rooms'[i] == rooms[i];
      } else {
        var i :| 0 < i < |rooms| && OnRoute(Center(rooms[i - 1]), Center(rooms[i]), x, y);
        assert rooms'[i] == rooms[i] && rooms'[i - 1] == rooms[i - 1];
      }
    }
  }

  /** The monsters of the new room stand in its bounds, which share no tile
      with an earlier room's, so each room still holds at most
      `MaxRoomMonsters` of them. */
  lemma CrowdStep(lv: Level, objs': seq<Object>, room: Rect)
    requires RoomsInv(lv.rooms) && Fits(room)
    requires CrowdInv(lv.objects, lv.rooms)
    requires forall i :: 1 <= i < |lv.objects| ==> InSomeRoom(lv.objects[i].x, lv.objects[i].y, lv.rooms)
    requires forall i :: 0 <= i < |lv.rooms| ==> !Intersect(room, lv.rooms[i])
    requires |lv.objects| <= |objs'| <= |lv.objects| + MaxRoomMonsters
    requires forall i :: 1 <= i < |lv.objects| ==> objs'[i] == lv.objects[i]
    requires forall i :: |lv.objects| <= i < |objs'| ==> InClosed(objs'[i].x, objs'[i].y, room)
    ensures CrowdInv(objs', lv.rooms + [room])
  {
    var rooms' := lv.rooms + [room];
    var old' := lv.objects[1..];
    var new' := objs'[|lv.objects|..];
    assert objs'[1..] == old' + new';
    forall i | 0 <= i < |new'|
      ensures InClosed(new'[i].x, new'[i].y, room)
    {
      assert new'[i] == objs'[|lv.objects| + i];
    }
    OutsideNewRoom(lv.objects, lv.rooms, room);
    forall j | 0 <= j < |rooms'|
      ensures CountIn(objs'[1..], rooms'[j]) <= MaxRoomMonsters
    {
      CountInAppend(old', new', rooms'[j]);
      if j < |lv.rooms| {
        assert rooms'[j] == lv.rooms[j];
        NoneInside(new', room, lv.rooms[j]);
      }
    }
  }

  /** Objects that each stand in some accepted room stand in none of the bounds
      of a room that meets no accepted room. */
  lemma OutsideNewRoom(objs: seq<Object>, rooms: seq<Rect>, room: Rect)
    requires RoomsInv(rooms) && Fits(room) && |objs| >= 1
    requires forall k :: 0 <= k < |rooms| ==> !Intersect(room, rooms[k])
    requires forall i :: 1 <= i < |objs| ==> InSomeRoom(objs[i].x, objs[i].y, rooms)
    ensures CountIn(objs[1..], room) == 0
  {
    forall i | 1 <= i < |objs|
      ensures !InClosed(objs[i].x, objs[i].y, room)
    {
      assert InSomeRoom(objs[i].x, objs[i].y, rooms);
      var k :| 0 <= k < |rooms| && InClosed(objs[i].x, objs[i].y, rooms[k]);
      IntersectIffSharedTile(room, rooms[k]);
    }
    assert forall i :: 0 <= i < |objs| - 1 ==> objs[1..][i] == objs[i + 1];
  }

  /** Objects standing in one room stand in no room it does not intersect. */
  lemma NoneInside(objs: seq<Object>, a: Rect, b: Rect)
    requires Proper(a) && Proper(b) && !Intersect(a, b)
    requires forall i :: 0 <= i < |objs| ==> InClosed(objs[i].x, objs[i].y, a)
    ensures CountIn(objs, b) == 0
  {
    IntersectIffSharedTile(a, b);
  }
}

=== FILE: geometry.dfy ===
/** Room geometry: the `Rect` class of firstrl.py. */
module Geometry {

  /** A rectangle with inclusive corner coordinates `(x1, y1)` and `(x2, y2)`. */
  datatype Rect = Rect(x1: int, y1: int, x2: int, y2: int)

  /** A room built from its top-left corner, width and height. */
  function MakeRect(x: int, y: int, w: int, h: int): (r: Rect)
    ensures r.x2 - r.x1 == w && r.y2 - r.y1 == h
    ensures r.x1 == x && r.y1 == y
  {
    Rect(x, y, x + w, y + h)
  }

  /** The room's centre: the average of its bounds rounded down. The source uses
      Python 2 integer division; coordinates are never negative there, and
      Dafny's `/` agrees with floor division on every integer anyway. */
  function Center(r: Rect): (c: (int, int))
    ensures 2 * c.0 <= r.x1 + r.x2 <= 2 * c.0 + 1
    ensures 2 * c.1 <= r.y1 + r.y2 <= 2 * c.1 + 1
  {
    ((r.x1 + r.x2) / 2, (r.y1 + r.y2) / 2)
  }

  /** Whether two rooms overlap, counting shared border tiles as overlap. */
  predicate Intersect(a: Rect, b: Rect) {
    a.x1 <= b.x2 && a.x2 >= b.x1 && a.y1 <= b.y2 && a.y2 >= b.y1
  }

  /** The point lies in the rectangle, bounds included. */
  predicate InClosed(x: int, y: int, r: Rect) {
    r.x1 <= x <= r.x2 && r.y1 <= y <= r.y2
  }

  /** The point lies strictly inside the rectangle: the tiles a room carves. */
  predicate InInterior(x: int, y: int, r: Rect) {
    r.x1 < x < r.x2 && r.y1 < y < r.y2
  }

  predicate Proper(r: Rect) {
    r.x1 <= r.x2 && r.y1 <= r.y2
  }

  lemma IntersectSymmetric(a: Rect, b: Rect)
    ensures Intersect(a, b) <==> Intersect(b, a)
  {
  }

  /** The overlap test is the closed-box test: two proper rectangles intersect
      exactly when some tile lies in both, border tiles included. */
  lemma IntersectIffSharedTile(a: Rect, b: Rect)
    requires Proper(a) && Proper(b)
    ensures Intersect(a, b) <==> exists x, y :: InClosed(x, y, a) && InClosed(x, y, b)
  {
    if Intersect(a, b) {
      var x := if a.x1 < b.x1 then b.x1 else a.x1;
      var y := if a.y1 < b.y1 then b.y1 else a.y1;
      assert InClosed(x, y, a) && InClosed(x, y, b);
    }
  }

  /** Rooms whose borders only touch still count as intersecting. */
  lemma TouchingRoomsIntersect(a: Rect, b: Rect)
    requires Proper(a) && Proper(b)
    requires a.x2 == b.x1 && a.y1 <= b.y2 && b.y1 <= a.y2
    ensures Intersect(a, b)
  {
  }

  /** The centre of a room at least two tiles wide and high is one of the tiles
      the room carves, at least `w / 2` tiles from the left and top borders. */
  lemma CenterInInterior(r: Rect)
    requires r.x2 - r.x1 >= 2 && r.y2 - r.y1 >= 2
    ensures InInterior(Center(r).0, Center(r).1, r)
    ensures Center(r).0 - r.x1 == (r.x2 - r.x1) / 2
    ensures Center(r).1 - r.y1 == (r.y2 - r.y1) / 2
  {
  }
}

=== FILE: objects.dfy ===
/** Objects on the map (the `Object` class of firstrl.py), the monster kinds
    `place_objects` creates, and the collision test `is_blocked`. */
module Objects {

  import opened Tiles

  /** A player or monster. Colour is a rendering detail and is left out. */
  datatype Object = Object(x: int, y: int, glyph: char, name: string, blocks: bool)

  /** The player as created before the map is made. */
  const InitialPlayer := Object(0, 0, '@', "player", true)

  predicate At(o: Object, x: int, y: int) {
    o.x == x && o.y == y
  }

  datatype Kind = Troll | Gnoll | Orc | Goblin

  /** The monster kind picked by a draw `choice` in `[0, 100]`. */
  function KindFor(choice: int): Kind {
    if choice < 10 then Troll
    else if choice < 10 + 20 then Gnoll
    else if choice < 10 + 20 + 30 then Orc
    else Goblin
  }

  function NewMonster(x: int, y: int, choice: int): (m: Object)
    ensures At(m, x, y) && m.blocks
    ensures m.name == "troll" <==> choice < 10
    ensures m.name == "gnoll" <==> 10 <= choice < 30
    ensures m.name == "orc" <==> 30 <= choice < 60
    ensures m.name == "goblin" <==> 60 <= choice
  {
    match KindFor(choice)
    case Troll => Object(x, y, 'T', "troll", true)
    case Gnoll => Object(x, y, 'G', "gnoll", true)
    case Orc => Object(x, y, 'o', "orc", true)
    case Goblin => Object(x, y, 'g', "goblin", true)
  }

  /** The least draw that picks the kind named `name`. */
  function FirstDrawFor(name: string): int {
    if name == "troll" then 0
    else if name == "gnoll" then 10
    else if name == "orc" then 30
    else 60
  }

  /** `o` is a monster `place_objects` could create where it stands. */
  predicate Spawned(o: Object) {
    o == NewMonster(o.x, o.y, FirstDrawFor(o.name))
  }

  lemma NewMonsterSpawned(x: int, y: int, c: int)
    requires 0 <= c <= 100
    ensures Spawned(NewMonster(x, y, c))
  {
    SpawnedIff(NewMonster(x, y, c));
  }

  /** The monsters `place_objects` can create are exactly those some draw in
      `[0, 100]` picks. */
  lemma SpawnedIff(o: Object)
    ensures Spawned(o) <==> exists c :: 0 <= c <= 100 && o == NewMonster(o.x, o.y, c)
  {
    if c :| 0 <= c <= 100 && o == NewMonster(o.x, o.y, c) {
      assert KindFor(FirstDrawFor(o.name)) == KindFor(c);
    }
    if Spawned(o) {
      assert 0 <= FirstDrawFor(o.name) <= 100;
    }
  }

  /** The integers of `[lo, hi)`. */
  function Ints(lo: int, hi: int): (s: set<int>)
    ensures forall c :: c in s <==> lo <= c < hi
    decreases hi - lo
  {
    if lo >= hi then {} else {lo} + Ints(lo + 1, hi)
  }

  lemma {:induction false} IntsSize(lo: int, hi: int)
    requires lo <= hi
    ensures |Ints(lo, hi)| == hi - lo
    decreases hi - lo
  {
    if lo < hi {
      IntsSize(lo + 1, hi);
      assert lo !in Ints(lo + 1, hi);
    }
  }

  /** The draws in `[0, n)` giving kind `k` are exactly `[a, b)`. */
  lemma KindShare(k: Kind, a: int, b: int, n: int)
    requires 0 <= a <= b <= n
    requires forall c :: 0 <= c < n ==> (KindFor(c) == k <==> a <= c < b)
    ensures |set c | c in Ints(0, n) && KindFor(c) == k| == b - a
  {
    var s := set c | c in Ints(0, n) && KindFor(c) == k;
    assert s == Ints(a, b);
    IntsSize(a, b);
  }

  /** Of the 101 possible draws of `random_get_int(0, 0, 100)`, ten give a
      troll, twenty a gnoll, thirty an orc and forty-one a goblin. The code's
      comments say 10%, 20%, 30% and 40%; the inclusive upper bound of 100
      gives the goblin the extra value. */
  lemma KindShares()
    ensures |set c | c in Ints(0, 101) && KindFor(c) == Troll| == 10
    ensures |set c | c in Ints(0, 101) && KindFor(c) == Gnoll| == 20
    ensures |set c | c in Ints(0, 101) && KindFor(c) == Orc| == 30
    ensures |set c | c in Ints(0, 101) && KindFor(c) == Goblin| == 41
  {
    KindShare(Troll, 0, 10, 101);
    KindShare(Gnoll, 10, 30, 101);
    KindShare(Orc, 30, 60, 101);
    KindShare(Goblin, 60, 101, 101);
  }

  /** The object scan of `is_blocked`: some object at `(x, y)` blocks. */
  function AnyBlockerAt(objs: seq<Object>, x: int, y: int): (b: bool)
    ensures b <==> exists i :: 0 <= i < |objs| && objs[i].blocks && At(objs[i], x, y)
  {
    if |objs| == 0 then false
    else if objs[0].blocks && At(objs[0], x, y) then true
    else
      var rest := AnyBlockerAt(objs[1..], x, y);
      assert rest <==> exists i :: 1 <= i < |objs| && objs[i].blocks && At(objs[i], x, y) by {
        forall i | 1 <= i < |objs| ensures objs[i] == objs[1..][i - 1] { }
      }
      rest
  }

  /** `is_blocked(x, y)`: the terrain blocks, or a blocking object stands there. */
  function IsBlocked(g: Grid, objs: seq<Object>, x: int, y: int): (b: bool)
    requires WellFormed(g) && InMap(x, y)
    ensures !b <==> Passable(g, x, y) && forall i :: 0 <= i < |objs| && At(objs[i], x, y) ==> !objs[i].blocks
  {
    if g[x][y].blocked then true else AnyBlockerAt(objs, x, y)
  }

  /** The target search of `player_move_or_attack`: the index of the first
      object of any kind at `(x, y)`, scanning from the front of the list. */
  function FirstAt(objs: seq<Object>, x: int, y: int): (r: Option<nat>)
    ensures r.Some? ==> r.value < |objs| && At(objs[r.value], x, y)
    ensures r.Some? ==> forall j :: 0 <= j < r.value ==> !At(objs[j], x, y)
    ensures r.None? <==> forall j :: 0 <= j < |objs| ==> !At(objs[j], x, y)
  {
    if |objs| == 0 then None
    else if At(objs[0], x, y) then Some(0)
    else
      var rest := FirstAt(objs[1..], x, y);
      assert forall j :: 1 <= j < |objs| ==> objs[j] == objs[1..][j - 1];
      if rest.Some? then Some(rest.value + 1) else None
  }

  /** `Object.move(dx, dy)` applied to `objs[i]`: it moves exactly when the
      destination is not blocked; every other object stays as it is. */
  function Move(g: Grid, objs: seq<Object>, i: nat, dx: int, dy: int): (objs': seq<Object>)
    requires WellFormed(g) && i < |objs| && InMap(objs[i].x + dx, objs[i].y + dy)
    ensures |objs'| == |objs|
    ensures forall j :: 0 <= j < |objs| && j != i ==> objs'[j] == objs[j]
    ensures !IsBlocked(g, objs, objs[i].x + dx, objs[i].y + dy) ==>
      objs'[i] == objs[i].(x := objs[i].x + dx, y := objs[i].y + dy)
    ensures IsBlocked(g, objs, objs[i].x + dx, objs[i].y + dy) ==> objs'[i] == objs[i]
  {
    var o := objs[i];
    if !IsBlocked(g, objs, o.x + dx, o.y + dy) then
      objs[i := o.(x := o.x + dx, y := o.y + dy)]
    else objs
  }
}

=== FILE: tiles.dfy ===
/** The tile grid of firstrl.py: the `Tile` class, the fully blocked initial
    map, and the three carving functions `create_room`, `create_h_tunnel` and
    `create_v_tunnel`. The map is indexed `[x][y]`, as in the source. */
module Tiles {

  import opened Geometry

  const MapWidth := 80
  const MapHeight := 45

  datatype Tile = Tile(blocked: bool, blockSight: bool, explored: bool)

  /** An optional value, for Python's `None` defaults and lookups that may
      find nothing. */
  datatype Option<+T> = None | Some(value: T)

  /** `Tile(blocked, block_sight=None)`: sight blocking follows `blocked` unless
      given explicitly; a new tile is never explored. */
  function NewTile(blocked: bool, blockSight: Option<bool>): (t: Tile)
    ensures t.blocked == blocked && !t.explored
    ensures blockSight.None? ==> t.blockSight == blocked
    ensures blockSight.Some? ==> t.blockSight == blockSight.value
  {
    Tile(blocked, if blockSight.Some? then blockSight.value else blocked, false)
  }

  type Grid = seq<seq<Tile>>

  predicate InMap(x: int, y: int) {
    0 <= x < MapWidth && 0 <= y < MapHeight
  }

  /** Not on the outermost ring of the map. */
  predicate InInner(x: int, y: int) {
    1 <= x < MapWidth - 1 && 1 <= y < MapHeight - 1
  }

  predicate WellFormed(g: Grid) {
    |g| == MapWidth && forall x :: 0 <= x < |g| ==> |g[x]| == MapHeight
  }

  /** The tile at `(x, y)` exists and does not block movement. */
  predicate Passable(g: Grid, x: int, y: int) {
    0 <= x < |g| && 0 <= y < |g[x]| && !g[x][y].blocked
  }

  /** `blocked` and `block_sight` agree on every tile. */
  ghost predicate Consistent(g: Grid)
    requires WellFormed(g)
  {
    forall x, y :: InMap(x, y) ==> g[x][y].blocked == g[x][y].blockSight
  }

  ghost predicate NoneExplored(g: Grid)
    requires WellFormed(g)
  {
    forall x, y :: InMap(x, y) ==> !g[x][y].explored
  }

  /** Every tile on the outermost ring of the map blocks movement. */
  ghost predicate BorderBlocked(g: Grid)
    requires WellFormed(g)
  {
    forall x, y :: InMap(x, y) && !InInner(x, y) ==> g[x][y].blocked
  }

  /** The map `make_map` starts from: every tile `Tile(True)`. */
  function InitialMap(): (g: Grid)
    ensures WellFormed(g)
    ensures forall x, y :: InMap(x, y) ==> g[x][y].blocked && g[x][y].blockSight && !g[x][y].explored
  {
    seq(MapWidth, x => seq(MapHeight, y => NewTile(true, None)))
  }

  /** A tile after carving: both flags cleared, the explored bit kept. */
  function Opened(t: Tile): Tile {
    t.(blocked := false, blockSight := false)
  }

  /** Clear `blocked` and `block_sight` at one cell. */
  function SetOpen(g: Grid, x: int, y: int): (g': Grid)
    requires WellFormed(g) && InMap(x, y)
    ensures WellFormed(g')
    ensures forall i, j :: InMap(i, j) ==>
      g'[i][j] == (if i == x && j == y then Opened(g[i][j]) else g[i][j])
  {
    g[x := g[x][y := Opened(g[x][y])]]
  }

  /** Carve the cells `(lo..hi, y)`, bounds included, from left to right. */
  function CarveRow(g: Grid, lo: int, hi: int, y: int): (g': Grid)
    requires WellFormed(g) && 0 <= lo && hi < MapWidth && 0 <= y < MapHeight
    ensures WellFormed(g')
    ensures forall i, j :: InMap(i, j) ==>
      g'[i][j] == (if j == y && lo <= i <= hi then Opened(g[i][j]) else g[i][j])
    decreases hi - lo + 1
  {
    if lo > hi then g else CarveRow(SetOpen(g, lo, y), lo + 1, hi, y)
  }

  /** Carve the cells `(x, lo..hi)`, bounds included, from top to bottom. */
  function CarveColumn(g: Grid, x: int, lo: int, hi: int): (g': Grid)
    requires WellFormed(g) && 0 <= x < MapWidth && 0 <= lo && hi < MapHeight
    ensures WellFormed(g')
    ensures forall i, j :: InMap(i, j) ==>
      g'[i][j] == (if i == x && lo <= j <= hi then Opened(g[i][j]) else g[i][j])
    decreases hi - lo + 1
  {
    if lo > hi then g else CarveColumn(SetOpen(g, x, lo), x, lo + 1, hi)
  }

  /** Carve the block `xlo..xhi × ylo..yhi` one column at a time. */
  function CarveBlock(g: Grid, xlo: int, xhi: int, ylo: int, yhi: int): (g': Grid)
    requires WellFormed(g) && 0 <= xlo && xhi < MapWidth && 0 <= ylo && yhi < MapHeight
    ensures WellFormed(g')
    ensures forall i, j :: InMap(i, j) ==>
      g'[i][j] == (if xlo <= i <= xhi && ylo <= j <= yhi then Opened(g[i][j]) else g[i][j])
    decreases xhi - xlo + 1
  {
    if xlo > xhi then g else CarveBlock(CarveColumn(g, xlo, ylo, yhi), xlo + 1, xhi, ylo, yhi)
  }

  function Min(a: int, b: int): int { if a < b then a else b }
  function Max(a: int, b: int): int { if a < b then b else a }

  /** `create_h_tunnel(x1, x2, y)`: carve row `y` between the two columns,
      whichever comes first. */
  function CreateHTunnel(g: Grid, x1: int, x2: int, y: int): (g': Grid)
    requires WellFormed(g) && InMap(x1, y) && InMap(x2, y)
    ensures WellFormed(g')
    ensures forall i, j :: InMap(i, j) ==>
      g'[i][j] == (if j == y && (x1 <= i <= x2 || x2 <= i <= x1) then Opened(g[i][j]) else g[i][j])
  {
    CarveRow(g, Min(x1, x2), Max(x1, x2), y)
  }

  /** `create_v_tunnel(y1, y2, x)`: carve column `x` between the two rows,
      whichever comes first. */
  function CreateVTunnel(g: Grid, y1: int, y2: int, x: int): (g': Grid)
    requires WellFormed(g) && InMap(x, y1) && InMap(x, y2)
    ensures WellFormed(g')
    ensures forall i, j :: InMap(i, j) ==>
      g'[i][j] == (if i == x && (y1 <= j <= y2 || y2 <= j <= y1) then Opened(g[i][j]) else g[i][j])
  {
    CarveColumn(g, x, Min(y1, y2), Max(y1, y2))
  }

  /** The room's bounds lie on the map, so every tile it carves does. */
  predicate RectInMap(r: Rect) {
    0 <= r.x1 && r.x2 < MapWidth && 0 <= r.y1 && r.y2 < MapHeight
  }

  /** `create_room(room)`: carve the room's interior, leaving its one-tile
      border ring and every tile outside the room as they were. */
  function CreateRoom(g: Grid, room: Rect): (g': Grid)
    requires WellFormed(g) && RectInMap(room)
    ensures WellFormed(g')
    ensures forall i, j :: InMap(i, j) ==>
      g'[i][j] == (if InInterior(i, j, room) then Opened(g[i][j]) else g[i][j])
  {
    CarveBlock(g, room.x1 + 1, room.x2 - 1, room.y1 + 1, room.y2 - 1)
  }

  /** Two well-formed grids with the same tiles are the same grid. */
  lemma GridExt(a: Grid, b: Grid)
    requires WellFormed(a) && WellFormed(b)
    requires forall x, y :: InMap(x, y) ==> a[x][y] == b[x][y]
    ensures a == b
  {
    forall x | 0 <= x < MapWidth
      ensures a[x] == b[x]
    {
      assert forall y :: 0 <= y < MapHeight ==> a[x][y] == b[x][y];
    }
  }

  lemma CreateRoomIdempotent(g: Grid, room: Rect)
    requires WellFormed(g) && RectInMap(room)
    ensures CreateRoom(CreateRoom(g, room), room) == CreateRoom(g, room)
  {
    GridExt(CreateRoom(CreateRoom(g, room), room), CreateRoom(g, room));
  }

  lemma CreateHTunnelIdempotent(g: Grid, x1: int, x2: int, y: int)
    requires WellFormed(g) && InMap(x1, y) && InMap(x2, y)
    ensures CreateHTunnel(CreateHTunnel(g, x1, x2, y), x1, x2, y) == CreateHTunnel(g, x1, x2, y)
  {
    GridExt(CreateHTunnel(CreateHTunnel(g, x1, x2, y), x1, x2, y), CreateHTunnel(g, x1, x2, y));
  }

  lemma CreateVTunnelIdempotent(g: Grid, y1: int, y2: int, x: int)
    requires WellFormed(g) && InMap(x, y1) && InMap(x, y2)
    ensures CreateVTunnel(CreateVTunnel(g, y1, y2, x), y1, y2, x) == CreateVTunnel(g, y1, y2, x)
  {
    GridExt(CreateVTunnel(CreateVTunnel(g, y1, y2, x), y1, y2, x), CreateVTunnel(g, y1, y2, x));
  }

  /** The tunnel carved is the same whichever endpoint is given first. */
  lemma CreateHTunnelSymmetric(g: Grid, x1: int, x2: int, y: int)
    requires WellFormed(g) && InMap(x1, y) && InMap(x2, y)
    ensures CreateHTunnel(g, x1, x2, y) == CreateHTunnel(g, x2, x1, y)
  {
    GridExt(CreateHTunnel(g, x1, x2, y), CreateHTunnel(g, x2, x1, y));
  }

  lemma CreateVTunnelSymmetric(g: Grid, y1: int, y2: int, x: int)
    requires WellFormed(g) && InMap(x, y1) && InMap(x, y2)
    ensures CreateVTunnel(g, y1, y2, x) == CreateVTunnel(g, y2, y1, x)
  {
    GridExt(CreateVTunnel(g, y1, y2, x), CreateVTunnel(g, y2, y1, x));
  }

  /** `g'` differs from `g` only by carving tiles off the outer ring: no tile
      is ever re-blocked, and the explored bit never changes. */
  ghost predicate Widens(g: Grid, g': Grid) {
    WellFormed(g) && WellFormed(g') &&
    forall x, y :: InMap(x, y) ==>
      g'[x][y] == g[x][y] || (InInner(x, y) && g'[x][y] == Opened(g[x][y]))
  }

  lemma WidensTransitive(a: Grid, b: Grid, c: Grid)
    requires Widens(a, b) && Widens(b, c)
    ensures Widens(a, c)
  {
  }

  /** Carving keeps both flags equal, the explored bits, the blocked outer ring
      and every passable tile. */
  lemma WidensPreserves(g: Grid, g': Grid)
    requires Widens(g, g')
    ensures Consistent(g) ==> Consistent(g')
    ensures NoneExplored(g) ==> NoneExplored(g')
    ensures forall x, y :: InMap(x, y) ==> g'[x][y].explored == g[x][y].explored
    ensures BorderBlocked(g) ==> BorderBlocked(g')
    ensures forall x, y :: Passable(g, x, y) ==> Passable(g', x, y)
  {
  }
}

=== FILE: turns.dfy ===
/** Play: `player_move_or_attack`, the key-to-action gating of `handle_keys`
    and the main loop, and the explored-memory update of `render_all`. */
module Turns {

  import opened Tiles
  import opened Objects
  import opened Generator

  /** The state the main loop works on: the map, the object list (the player
      first) and the `fov_recompute` flag. */
  datatype Game = Game(grid: Grid, objects: seq<Object>, fovRecompute: bool)

  /** A message the source prints: an attack the target laughs at, or a
      monster growling on its turn. */
  datatype Event = Laughs(name: string) | Growls(name: string)

  datatype Turn = Turn(game: Game, log: seq<Event>)

  /** The game right after `make_map`: the field of view still to compute. */
  function NewGame(lv: Level): (gm: Game)
    ensures gm.fovRecompute
    ensures gm.grid == lv.grid && gm.objects == lv.objects
  {
    Game(lv.grid, lv.objects, true)
  }

  /** What holds between turns: the outer ring of the map is wall and the
      player stands on a passable tile, so every arrow-key step from the
      player stays on the map. */
  ghost predicate PlayInv(gm: Game) {
    && WellFormed(gm.grid)
    && BorderBlocked(gm.grid)
    && |gm.objects| >= 1
    && Passable(gm.grid, gm.objects[0].x, gm.objects[0].y)
  }

  lemma NewGameInv(rng: seq<int>)
    ensures MakeMap(rng).Ok? ==> PlayInv(NewGame(MakeMap(rng).value))
  {
  }

  predicate UnitStep(dx: int, dy: int) {
    (dx == 0 && (dy == 1 || dy == -1)) || (dy == 0 && (dx == 1 || dx == -1))
  }

  /** A single arrow-key step from the player never leaves the map. */
  lemma StepStaysOnMap(gm: Game, dx: int, dy: int)
    requires PlayInv(gm) && UnitStep(dx, dy)
    ensures InMap(gm.objects[0].x + dx, gm.objects[0].y + dy)
  {
    var p := gm.objects[0];
    assert InMap(p.x, p.y);
    assert InInner(p.x, p.y);
  }

  /** `player_move_or_attack(dx, dy)`: the first object of any kind at the
      destination is attacked, and nothing moves; with no object there the
      player tries to move and `fov_recompute` is set, even when the terrain
      refuses the move. */
  function PlayerMoveOrAttack(gm: Game, dx: int, dy: int): (t: Turn)
    requires WellFormed(gm.grid) && |gm.objects| >= 1
    requires InMap(gm.objects[0].x + dx, gm.objects[0].y + dy)
    ensures t.game.grid == gm.grid && |t.game.objects| == |gm.objects|
    ensures forall j :: 1 <= j < |gm.objects| ==> t.game.objects[j] == gm.objects[j]
    ensures (exists i :: 0 <= i < |gm.objects| && At(gm.objects[i], gm.objects[0].x + dx, gm.objects[0].y + dy)) ==>
      && t.game == gm
      && |t.log| == 1 && t.log[0].Laughs?
    ensures (forall i :: 0 <= i < |gm.objects| ==> !At(gm.objects[i], gm.objects[0].x + dx, gm.objects[0].y + dy)) ==>
      && t.game.fovRecompute
      && t.log == []
      && (Passable(gm.grid, gm.objects[0].x + dx, gm.objects[0].y + dy) ==>
            t.game.objects[0] == gm.objects[0].(x := gm.objects[0].x + dx, y := gm.objects[0].y + dy))
      && (!Passable(gm.grid, gm.objects[0].x + dx, gm.objects[0].y + dy) ==>
            t.game.objects[0] == gm.objects[0])
  {
    var x := gm.objects[0].x + dx;
    var y := gm.objects[0].y + dy;
    match FirstAt(gm.objects, x, y)
    case Some(i) => Turn(gm, [Laughs(gm.objects[i].name)])
    case None =>
      Turn(gm.(objects := Move(gm.grid, gm.objects, 0, dx, dy), fovRecompute := true), [])
  }

  /** The message names the first object at the destination, in list order,
      whether or not it blocks. */
  lemma AttackNamesFirstTarget(gm: Game, dx: int, dy: int, i: nat)
    requires WellFormed(gm.grid) && |gm.objects| >= 1
    requires InMap(gm.objects[0].x + dx, gm.objects[0].y + dy)
    requires i < |gm.objects| && At(gm.objects[i], gm.objects[0].x + dx, gm.objects[0].y + dy)
    requires forall j :: 0 <= j < i ==> !At(gm.objects[j], gm.objects[0].x + dx, gm.objects[0].y + dy)
    ensures PlayerMoveOrAttack(gm, dx, dy).log == [Laughs(gm.objects[i].name)]
  {
    var r := FirstAt(gm.objects, gm.objects[0].x + dx, gm.objects[0].y + dy);
    assert r.Some?;
  }

  /** A step from a valid position keeps the player on a passable tile. */
  lemma MoveKeepsPlayInv(gm: Game, dx: int, dy: int)
    requires PlayInv(gm) && UnitStep(dx, dy)
    ensures InMap(gm.objects[0].x + dx, gm.objects[0].y + dy)
    ensures PlayInv(PlayerMoveOrAttack(gm, dx, dy).game)
  {
    StepStaysOnMap(gm, dx, dy);
  }

  datatype Intent = MoveUp | MoveDown | MoveLeft | MoveRight | ToggleFullscreen | ExitKey | NoKey {
    predicate IsMove() {
      MoveUp? || MoveDown? || MoveLeft? || MoveRight?
    }
  }

  /** The value `handle_keys` returns: `'exit'`, `'didnt-take-turn'`, or
      nothing, which lets the monsters act. */
  datatype Action = Exit | DidntTakeTurn | TookTurn

  /** The step each arrow key asks for; `y` grows downwards. */
  function Delta(intent: Intent): (d: (int, int))
    requires intent.IsMove()
    ensures UnitStep(d.0, d.1)
    ensures intent == MoveUp <==> d == (0, -1)
    ensures intent == MoveDown <==> d == (0, 1)
    ensures intent == MoveLeft <==> d == (-1, 0)
    ensures intent == MoveRight <==> d == (1, 0)
  {
    match intent
    case MoveUp => (0, -1)
    case MoveDown => (0, 1)
    case MoveLeft => (-1, 0)
    case MoveRight => (1, 0)
  }

  datatype KeyResult = KeyResult(game: Game, action: Action, log: seq<Event>)

  /** `handle_keys` for one key intent. Escape exits at once; fullscreen
      toggling is display work only, after which the key counts as a
      non-movement key; while playing, a movement key moves or attacks, and any
      other key does not take a turn. */
  function HandleKeys(gm: Game, intent: Intent, playing: bool): (r: KeyResult)
    requires PlayInv(gm)
    ensures r.action == Exit <==> intent == ExitKey
    ensures r.action == DidntTakeTurn <==> playing && !intent.IsMove() && intent != ExitKey
    ensures r.action != TookTurn ==> r.game == gm && r.log == []
    ensures !playing && intent != ExitKey ==> r == KeyResult(gm, TookTurn, [])
    ensures playing && intent.IsMove() ==>
      && InMap(gm.objects[0].x + Delta(intent).0, gm.objects[0].y + Delta(intent).1)
      && var t := PlayerMoveOrAttack(gm, Delta(intent).0, Delta(intent).1);
         r.game == t.game && r.log == t.log
    ensures PlayInv(r.game)
  {
    if intent == ExitKey then KeyResult(gm, Exit, [])
    else if !playing then KeyResult(gm, TookTurn, [])
    else if intent.IsMove() then
      var d := Delta(intent);
      MoveKeepsPlayInv(gm, d.0, d.1);
      var t := PlayerMoveOrAttack(gm, d.0, d.1);
      KeyResult(t.game, TookTurn, t.log)
    else KeyResult(gm, DidntTakeTurn, [])
  }

  /** The monsters' turn of the main loop: every object but the player growls,
      in list order. */
  function MonsterTurn(objs: seq<Object>): (log: seq<Event>)
    requires |objs| >= 1
    ensures |log| == |objs| - 1
    ensures forall i :: 0 <= i < |log| ==> log[i] == Growls(objs[i + 1].name)
  {
    seq(|objs| - 1, i requires 0 <= i < |objs| - 1 => Growls(objs[i + 1].name))
  }

  /** Mark every visible tile explored; flags and all other tiles unchanged. */
  function Explore(g: Grid, visible: set<(int, int)>): (g': Grid)
    requires WellFormed(g)
    ensures WellFormed(g')
    ensures forall x, y :: InMap(x, y) ==>
      && g'[x][y].blocked == g[x][y].blocked
      && g'[x][y].blockSight == g[x][y].blockSight
      && (g'[x][y].explored <==> g[x][y].explored || (x, y) in visible)
  {
    seq(MapWidth, x requires 0 <= x < MapWidth =>
      seq(MapHeight, y requires 0 <= y < MapHeight =>
        if (x, y) in visible then g[x][y].(explored := true) else g[x][y]))
  }

  /** The explored-memory part of `render_all`. The visible set is what
      libtcod's field-of-view computation reports from the player's position;
      it is an input here. Only a pending recompute does anything, and it
      clears the flag. */
  function Render(gm: Game, visible: set<(int, int)>): (gm': Game)
    requires WellFormed(gm.grid)
    ensures !gm.fovRecompute ==> gm' == gm
    ensures !gm'.fovRecompute && gm'.objects == gm.objects && WellFormed(gm'.grid)
    ensures gm.fovRecompute ==> forall x, y :: InMap(x, y) ==>
      gm'.grid[x][y] == gm.grid[x][y].(explored := gm.grid[x][y].explored || (x, y) in visible)
  {
    if gm.fovRecompute then gm.(fovRecompute := false, grid := Explore(gm.grid, visible))
    else gm
  }

  /** Rendering never forgets a tile: an explored tile stays explored, and
      the map's passability and sight flags are untouched. */
  lemma RenderMonotone(gm: Game, visible: set<(int, int)>)
    requires PlayInv(gm)
    ensures PlayInv(Render(gm, visible))
    ensures forall x, y :: InMap(x, y) && gm.grid[x][y].explored ==> Render(gm, visible).grid[x][y].explored
    ensures forall x, y :: InMap(x, y) ==>
      Render(gm, visible).grid[x][y].blocked == gm.grid[x][y].blocked
  {
  }

  /** Marking the same visible set twice is the same as marking it once. */
  lemma ExploreIdempotent(g: Grid, visible: set<(int, int)>)
    requires WellFormed(g)
    ensures Explore(Explore(g, visible), visible) == Explore(g, visible)
  {
    GridExt(Explore(Explore(g, visible), visible), Explore(g, visible));
  }

  datatype LoopResult = LoopResult(game: Game, exit: bool, log: seq<Event>)

  /** One pass of the main loop: render (only the explored-memory update is
      modelled), read one key and act on it in the rendered game, and unless
      the key said exit or did not take a turn, let each monster act. The
      pass ends in the game the key left and logs the key's messages first. */
  function LoopStep(gm: Game, visible: set<(int, int)>, intent: Intent, playing: bool): (r: LoopResult)
    requires PlayInv(gm)
    ensures r.exit <==> intent == ExitKey
    ensures PlayInv(r.game) && r.game.objects[1..] == gm.objects[1..]
    ensures !playing || !intent.IsMove() ==> r.log == []
    ensures playing && intent.IsMove() ==>
      && |gm.objects| - 1 <= |r.log| <= |gm.objects|
      && forall i :: 1 <= i < |gm.objects| ==>
           r.log[|r.log| - |gm.objects| + i] == Growls(gm.objects[i].name)
  {
    RenderMonotone(gm, visible);
    var g1 := Render(gm, visible);
    var k := HandleKeys(g1, intent, playing);
    if k.action == Exit then LoopResult(k.game, true, k.log)
    else if playing && k.action != DidntTakeTurn then
      LoopResult(k.game, false, k.log + MonsterTurn(k.game.objects))
    else LoopResult(k.game, false, k.log)
  }

  /** A pass renders first and then handles the key in the rendered game: it
      ends in the game the key handler leaves, and its log starts with the
      handler's messages. So a movement key is never ignored and the explored
      update is never skipped. */
  lemma LoopStepRendersThenKeys(gm: Game, visible: set<(int, int)>, intent: Intent, playing: bool)
    requires PlayInv(gm)
    ensures PlayInv(Render(gm, visible)) &&
      var r := LoopStep(gm, visible, intent, playing);
      var k := HandleKeys(Render(gm, visible), intent, playing);
      r.game == k.game && |k.log| <= |r.log| && r.log[..|k.log|] == k.log
  {
    RenderMonotone(gm, visible);
  }
}
